=== FILE: README.md ===
# CreateExcelAddIn build-item resolution, modelled in Dafny

Excel-DNA's MSBuild task `CreateExcelAddIn` turns the `.dna` descriptors of a
project into add-ins ready for Excel. It works in four steps:

1. It runs its sanity checks. Both loaders (`.xll` files) must exist, and the
   32-bit and 64-bit file suffixes must differ, ignoring case.
2. It picks the `.dna` and `.config` files out of the project's file list and
   sorts each list.
3. It derives a 32-bit and a 64-bit name for every descriptor. Both suffixes are
   stripped from the stem, then the target suffix is appended.
4. It runs a 32-bit pass and then a 64-bit pass. In each pass, every descriptor
   that should be emitted is copied to the output directory, together with the
   loader and the configuration file found through a three-step priority chain.
   When packing is enabled, the descriptor is then recorded in the list of files
   to pack.

The model is functional. Strings are `seq<char>`. Nullable strings are
`Option<string>`. The copies a run would make are returned, in order, as a plan
(`BuildPlan.copies`), next to the list of files to pack (`BuildPlan.dnaFilesToPack`).
`Execute` returns `Failed(error)` where the build task throws from its sanity checks and
returns false. Otherwise it returns `Succeeded(plan)`.

Modules, in dependency order:

- `Optional`: the `Option` type.
- `Text`:
  - ordinal case-insensitive comparison, as equality after an ASCII upper-case fold;
  - `char.IsWhiteSpace` and `string.IsNullOrWhiteSpace`;
  - `LastIndexOf(…, OrdinalIgnoreCase)` and `LastIndexOfAny`.
- `Paths`: the part of `System.IO.Path` (.NET Framework) CreateExcelAddIn uses,
  for Windows paths.
  - `\` and `/` both separate directories; `Combine` inserts `\`.
  - A leading separator or a drive (`C:`, `C:\`) is a root, and
    `GetDirectoryName` keeps it whole (`C:\Book.dna` lies in `C:\`).
  - `GetDirectoryName` spells its result with `\` only: `C:/Book.dna` lies in
    `C:\`, and `a/b/Book.dna` in `a\b`.
  - `GetDirectoryName`, `GetFileName`, `GetFileNameWithoutExtension`,
    `GetExtension`, `ChangeExtension`, `IsPathRooted`, `Combine`.
- `Ordering`: `OrderBy` as a stable insertion sort under a comparator `le`, which
  is a parameter.
- `AddInSettings`: the build task's input properties and `RunSanityChecks`.
- `BitnessNaming`: `GetFileNameWithBitnessSuffix` and the shape of derived names.
- `BuildItems`:
  - classification of the project's files and `BuildItemSpec`;
  - the emission test `ShouldCopy32/64BitDnaOutput`, plus an indexed version of
    the collision test proved equal to the scan;
  - the configuration priority chain `TryFindAppConfigFileName`.
- `CreateExcelAddIn`: the two passes, the files to pack, and `Execute`.
- `Scenarios`: worked cases, each stated for every base name and suffix pair
  that meets its conditions (for instance `Book.dna` with suffixes `32` and `64`).

Behaviour worth knowing, all proved about the model:

- Derivation is not idempotent. With suffixes `32` and `64`, `A64B64.dna` derives
  to `A64B32.dna` for 32-bit, and that name derives to `A32.dna`
  (`Scenarios.DerivationIsNotIdempotent`).
- A suffix found only at the very start of the stem is kept (`indexOfSuffix > 0`).
- With `Book.dna` and `Book32.dna` in the project:
  - `Book.dna` gives way for 32-bit;
  - for 64-bit, both descriptors are emitted to the same `Book64.dna`, so the
    second copy overwrites the first and, when packing is enabled, the name is
    recorded twice for packing.
- The canonical-name test is ordinal and case-sensitive, but the collision test
  ignores case. So a descriptor whose name differs from its derived name only in
  letter case collides with itself and is skipped.

## Model

All source paths are in `Source/ExcelDna.AddIn.Tasks/CreateExcelAddIn.cs`.

| member | source | states |
|---|---|---|
| Text.LastIndexOfIgnoreCase | Source/ExcelDna.AddIn.Tasks/CreateExcelAddIn.cs:211 | the result is an index where the suffix occurs ignoring case, and no later index holds an occurrence; it is absent exactly when the suffix occurs nowhere |
| AddInSettings.RunSanityChecks | Source/ExcelDna.AddIn.Tasks/CreateExcelAddIn.cs:83-99 | no error exactly when both loaders exist and the suffixes differ ignoring case; a missing 32-bit loader is reported first; identical suffixes are reported only when both loaders exist |
| AddInSettings.BothSuffixesUnsetFails | Source/ExcelDna.AddIn.Tasks/CreateExcelAddIn.cs:95-98 | two unset (null) suffixes count as identical, so the run fails |
| AddInSettings.CaseVariantSuffixesFail | Source/ExcelDna.AddIn.Tasks/CreateExcelAddIn.cs:95-98 | suffixes that differ only in letter case (`x32`, `X32`) are rejected as identical |
| CreateExcelAddIn.Execute | Source/ExcelDna.AddIn.Tasks/CreateExcelAddIn.cs:33-67 | the run fails, with no plan at all, exactly when a loader is missing or the suffixes are equal ignoring case, and it reports the first failing check |
| BuildItems.FilesWithExtension | Source/ExcelDna.AddIn.Tasks/CreateExcelAddIn.cs:101-109 | the selected files are exactly the inputs whose extension matches ignoring case, each occurring as often as in the input; the list is sorted whenever the order is a total preorder |
| BuildItems.BuildItemsForDnaFiles | Source/ExcelDna.AddIn.Tasks/CreateExcelAddIn.cs:111-143 | exactly one item per `.dna` input (extension matched ignoring case, duplicates kept), sorted by file name, and each item is built from its own file name |
| BuildItems.VariantInputConfigName | Source/ExcelDna.AddIn.Tasks/CreateExcelAddIn.cs:126-129 | a variant's own configuration file has the derived descriptor's stem and the extension `.config`, and lies in the derived descriptor's directory |
| Paths.DirectoryNameOfChangeExtension | Source/ExcelDna.AddIn.Tasks/CreateExcelAddIn.cs:126-129 | changing the extension of a path whose file name is not empty keeps its directory |
| BuildItems.VariantOutputNames | Source/ExcelDna.AddIn.Tasks/CreateExcelAddIn.cs:132-139 | the staged descriptor keeps the derived file name; the loader has the derived stem and extension `.xll`; the loader's configuration is the loader's path followed by `.config` |
| BuildItems.VariantOutputDirectory | Source/ExcelDna.AddIn.Tasks/CreateExcelAddIn.cs:132-139 | the staged descriptor and the loader both lie in the descriptor's own directory placed under the output directory, that directory spelled with `\` |
| BuildItems.VariantFor | Source/ExcelDna.AddIn.Tasks/CreateExcelAddIn.cs:126-139 | the names of one variant; their properties are stated by `BuildItems.VariantInputConfigName`, `BuildItems.VariantOutputNames` and `BuildItems.VariantOutputDirectory` |
| BuildItems.BuildItemFor | Source/ExcelDna.AddIn.Tasks/CreateExcelAddIn.cs:117-139 | one item holding both variants of a descriptor; `BuildItems.BuildItemsForDnaFiles` states that every item is built this way from its own name |
| BuildItems.DnaFileNameAs | Source/ExcelDna.AddIn.Tasks/CreateExcelAddIn.cs:185-193 | the descriptor name for a bitness, derived with that bitness' suffix; its shape is stated by `BitnessNaming.DerivedNameShape` |
| BuildItems.AppConfigFileNameAs | Source/ExcelDna.AddIn.Tasks/CreateExcelAddIn.cs:195-203 | `App.config` derived for a bitness; its value is stated by `Scenarios.FallbackConfigName` |
| BuildItems.ConfigFilesInProject | Source/ExcelDna.AddIn.Tasks/CreateExcelAddIn.cs:101-109 | exactly the project files whose extension is `.config` ignoring case, each as often as in the project, sorted whenever the order is a total preorder |
| Scenarios.FallbackConfigName | Source/ExcelDna.AddIn.Tasks/CreateExcelAddIn.cs:195-203 | the fallback configuration file is `App.config` run through the same derivation: `App` plus the bitness suffix plus `.config` |
| BitnessNaming.StripMarker | Source/ExcelDna.AddIn.Tasks/CreateExcelAddIn.cs:209-216 | the result is a prefix of the stem; it differs from the stem exactly when the suffix is non-blank and occurs after index 0; then it is cut at the last occurrence, so everything after it is dropped too |
| BitnessNaming.GenericStem | Source/ExcelDna.AddIn.Tasks/CreateExcelAddIn.cs:207-225 | stripping both suffixes gives a prefix of the stem, non-empty when the stem is; a stem that neither suffix can strip is kept whole |
| BitnessNaming.FileNameWithBitnessSuffix | Source/ExcelDna.AddIn.Tasks/CreateExcelAddIn.cs:205-230 | the derivation itself; its shape is stated by `BitnessNaming.DerivedNameShape`, its fixed points by `BitnessNaming.CanonicalNameIsFixedPoint` |
| BitnessNaming.DerivedNameShape | Source/ExcelDna.AddIn.Tasks/CreateExcelAddIn.cs:205-230 | a derived name keeps the input's directory and extension, and its stem is a prefix of the input's stem followed by the target suffix |
| BitnessNaming.CanonicalStemIsFixedPoint32 | Source/ExcelDna.AddIn.Tasks/CreateExcelAddIn.cs:209-225 | a stem ending in the 32-bit suffix, whose base the 64-bit suffix cannot strip, derives back to itself for 32-bit |
| BitnessNaming.CanonicalStemIsFixedPoint64 | Source/ExcelDna.AddIn.Tasks/CreateExcelAddIn.cs:209-225 | a stem ending in the 64-bit suffix, in which the 32-bit suffix cannot be stripped, derives back to itself for 64-bit |
| BitnessNaming.CanonicalNameIsFixedPoint | Source/ExcelDna.AddIn.Tasks/CreateExcelAddIn.cs:205-230 | a file whose stem already is its generic stem plus the target suffix is its own derived name |
| Scenarios.GenericNameGetsSuffix | Source/ExcelDna.AddIn.Tasks/CreateExcelAddIn.cs:205-230 | a name holding neither suffix gets the target suffix before its extension (`Book.dna` becomes `Book32.dna`) |
| Scenarios.GenericNameInDirectory | Source/ExcelDna.AddIn.Tasks/CreateExcelAddIn.cs:229 | in any directory, a root such as `C:\` or `\` included, a name holding neither suffix stays in that directory, now spelled with `\` (`C:/Book.dna` becomes `C:\Book32.dna`), and gets the target suffix before its extension |
| Paths.DirectoryNameOfCombine | Source/ExcelDna.AddIn.Tasks/CreateExcelAddIn.cs:229 | a plain file name combined with a directory that is empty, a root, or ends in neither a separator nor `:` lies in that directory, spelled with `\`, and keeps its name |
| Scenarios.SlashSpelledDirectoryDoesNotCollide | Source/ExcelDna.AddIn.Tasks/CreateExcelAddIn.cs:229-243 | for a generic descriptor in a directory spelled with `/`, the derived 32-bit name uses `\`, so it matches the explicit 32-bit descriptor written with `/` in neither spelling ignoring case, and the generic descriptor is emitted for 32-bit |
| Scenarios.ExplicitNameDerivation | Source/ExcelDna.AddIn.Tasks/CreateExcelAddIn.cs:209-229 | a name ending in the 32-bit suffix derives like its base name (`Book32.dna` becomes `Book64.dna` for 64-bit) |
| Scenarios.SuffixAtStartIsKept | Source/ExcelDna.AddIn.Tasks/CreateExcelAddIn.cs:211-215 | a suffix found only at index 0 is not stripped, so the name gains a second copy of it |
| Scenarios.DerivationIsNotIdempotent | Source/ExcelDna.AddIn.Tasks/CreateExcelAddIn.cs:209-229 | for every name of the form `a64b64.dna`, deriving the 32-bit name twice gives two different names |
| BuildItems.ShouldCopyDnaOutput | Source/ExcelDna.AddIn.Tasks/CreateExcelAddIn.cs:232-256 | the emission test; `BuildItems.DecideEmission` computes it with an index and `BuildItems.CaseVariantOfOwnNameIsSkipped` states its self-collision |
| BuildItems.CaseVariantOfOwnNameIsSkipped | Source/ExcelDna.AddIn.Tasks/CreateExcelAddIn.cs:232-256 | a descriptor whose name differs from its derived name only in letter case is not emitted, because it collides with itself |
| BuildItems.FoldedNameIndexAnswersCollision | Source/ExcelDna.AddIn.Tasks/CreateExcelAddIn.cs:239-240 | looking up a folded name in the index of folded descriptor names answers, both ways, whether some descriptor has that name ignoring case |
| BuildItems.DecideEmission | Source/ExcelDna.AddIn.Tasks/CreateExcelAddIn.cs:232-256 | an item is emitted for a bitness exactly when that bitness is enabled and either its name ordinally equals its derived name or no descriptor has the derived name ignoring case |
| Scenarios.LoneDescriptorIsEmittedTwice | Source/ExcelDna.AddIn.Tasks/CreateExcelAddIn.cs:132-136 | a descriptor alone in the project is emitted for both bitnesses, as `<base><suffix>.dna` with loader `<base><suffix>.xll` in the output directory |
| Scenarios.ExplicitVariantTakesPrecedence | Source/ExcelDna.AddIn.Tasks/CreateExcelAddIn.cs:232-256 | with `Book.dna` and `Book32.dna`, the generic descriptor is skipped for 32-bit and the explicit one emitted; for 64-bit both are emitted to the same output name |
| Scenarios.CaseOnlyDifferenceIsSkipped | Source/ExcelDna.AddIn.Tasks/CreateExcelAddIn.cs:232-243 | a descriptor spelled with a case variant of the 32-bit suffix is not emitted for 32-bit |
| BuildItems.FirstIndexIgnoreCase | Source/ExcelDna.AddIn.Tasks/CreateExcelAddIn.cs:280 | the first configuration file matching the name ignoring case; none exactly when no file matches |
| BuildItems.TryFindAppConfigFileName | Source/ExcelDna.AddIn.Tasks/CreateExcelAddIn.cs:267-287 | the preferred name if present ignoring case, else the fallback name if present, else the project's first spelling of `App.config`, else nothing; any result names a configuration file of the project |
| Scenarios.OwnConfigFirst | Source/ExcelDna.AddIn.Tasks/CreateExcelAddIn.cs:269-272 | the descriptor's own configuration file wins over `App32.config` and `App.config` |
| Scenarios.FallbackConfigSecond | Source/ExcelDna.AddIn.Tasks/CreateExcelAddIn.cs:274-278 | without it, the fallback `App32.config` is chosen over `App.config` |
| Scenarios.ProjectConfigLast | Source/ExcelDna.AddIn.Tasks/CreateExcelAddIn.cs:280-286 | the project's `app.config` is returned in its own spelling, and a project without any of the three names gives no configuration file |
| CreateExcelAddIn.ConfigCopy | Source/ExcelDna.AddIn.Tasks/CreateExcelAddIn.cs:258-265 | at most one copy, onto the loader's configuration file, from a non-blank name that matches a configuration file of the project ignoring case |
| CreateExcelAddIn.ConfigCopiedIffFound | Source/ExcelDna.AddIn.Tasks/CreateExcelAddIn.cs:258-265 | over `.config` files, the configuration file is copied over the loader's configuration exactly when the priority chain finds one |
| CreateExcelAddIn.PackedXllFileName | Source/ExcelDna.AddIn.Tasks/CreateExcelAddIn.cs:309-312 | with a blank packed suffix the packed name is the loader's path; otherwise it is the loader's stem, then the suffix, then `.xll`, in the loader's directory |
| CreateExcelAddIn.AddDnaToListOfFilesToPack | Source/ExcelDna.AddIn.Tasks/CreateExcelAddIn.cs:302-322 | one entry when packing is enabled and none otherwise; `CreateExcelAddIn.PassPackItems` states what a pass records |
| CreateExcelAddIn.StageItem | Source/ExcelDna.AddIn.Tasks/CreateExcelAddIn.cs:147-156 | what one emitted item stages; `CreateExcelAddIn.StageItemLeadingCopies` states that the descriptor copy and the loader copy come first |
| CreateExcelAddIn.TryBuildAddIn | Source/ExcelDna.AddIn.Tasks/CreateExcelAddIn.cs:145-183 | one pass over the items; `CreateExcelAddIn.PassCopies` and `CreateExcelAddIn.PassPackItems` state what it copies and records |
| CreateExcelAddIn.PassPackItems | Source/ExcelDna.AddIn.Tasks/CreateExcelAddIn.cs:145-183 | a pass records nothing unless packing is enabled, and otherwise one entry per emitted item, in item order |
| CreateExcelAddIn.PassCopies | Source/ExcelDna.AddIn.Tasks/CreateExcelAddIn.cs:147-156 | every emitted item's descriptor copy and loader copy are in the pass's copies |
| CreateExcelAddIn.DisabledBitnessStagesNothing | Source/ExcelDna.AddIn.Tasks/CreateExcelAddIn.cs:145-163 | a pass for a disabled bitness copies nothing and records nothing |
| CreateExcelAddIn.DisabledBitnessContributesNothing | Source/ExcelDna.AddIn.Tasks/CreateExcelAddIn.cs:51-55 | with one bitness disabled, a successful run's plan is exactly the other bitness' pass |
| CreateExcelAddIn.ManifestLayout | Source/ExcelDna.AddIn.Tasks/CreateExcelAddIn.cs:41-57 | the list of files to pack is empty unless packing is enabled; otherwise it holds all 32-bit entries in item order, then all 64-bit entries in item order |
| CreateExcelAddIn.CanonicalNamePassesThrough | Source/ExcelDna.AddIn.Tasks/CreateExcelAddIn.cs:232-237 | a descriptor whose name ordinally equals its derived name is emitted whenever its bitness is enabled: its descriptor and loader are copied |
| CreateExcelAddIn.InputOrderIsIrrelevant | Source/ExcelDna.AddIn.Tasks/CreateExcelAddIn.cs:103-116 | under a total order of file names, two projects listing the same files in different orders give the same outcome |
| CreateExcelAddIn.TryBuildAddInIndexed | Source/ExcelDna.AddIn.Tasks/CreateExcelAddIn.cs:145-163 | a pass that decides emission from one index of folded names yields the same plan as the pass that scans all items for every item |
| Ordering.SortBySorted | Source/ExcelDna.AddIn.Tasks/CreateExcelAddIn.cs:105 | sorting under a total preorder yields a sorted sequence |
| Ordering.SortedUnique | Source/ExcelDna.AddIn.Tasks/CreateExcelAddIn.cs:116 | under a total order, two sorted sequences with the same elements are equal |

## Left out

- Real file-system effects are not modelled. This covers copying, directory
  existence and creation (lines 289-300) and relative-path formatting. The plan
  lists the copies, in order, and assumes each one succeeds. A failing copy, which
  makes the build task return false part-way, is not modelled.
- Logging (`LogDiagnostics`, `LogMessage`, `LogError` and its error codes) has no
  effect on the outcome and is not modelled. The exception messages become the
  `SanityError` values.
- `Execute` does not model a null `OutDirectory`, which makes `Path.Combine`
  throw, or any other exception after the sanity checks. The file list is a
  sequence, so the null `FilesInProject` that line 44 replaces by an empty list
  is the empty sequence here.
- `Execute` does not model the value of `DnaFilesToPack` after a failed run:
  the `Failed` result carries no plan.
- MSBuild plumbing (`ITaskItem`, `TaskItem`, the `Hashtable` metadata, the
  attributes and constructors) is replaced by plain records.
- `Paths` covers only the part of `System.IO.Path` CreateExcelAddIn uses. It does not
  model UNC roots, or any normalisation by `GetDirectoryName` other than rewriting
  `/` to `\` (doubled separators, `.` and `..` segments, trailing dots and
  spaces). It also leaves out invalid path characters (including a `:` outside a
  drive root, which .NET rejects) and `ChangeExtension` with a null extension.
  Lemmas about name shapes assume a simple relative path (`IsSimplePath`).
- Case folding covers ASCII letters only. Ordinal case-insensitive comparison of
  other letters is not modelled.
- `Ordering` does not model the culture-sensitive comparer of `OrderBy`. The order
  is a parameter. Sortedness is proved under a total preorder, and independence
  from input order under a total order.
- BitnessNaming.FileNameWithBitnessSuffix: the directory of the input is
  normalised only by rewriting `/` to `\`. The other normalisations of
  `GetDirectoryName` (doubled separators, `.` and `..` segments, trailing dots and
  spaces) are not modelled, so for such paths the derived name keeps the spelling
  of the input.
- BitnessNaming.DerivedNameShape: stated for simple relative paths with an
  extension and a suffix free of separators, dots and `:`. It does not cover
  other paths, where `Path.Combine` or `GetExtension` can move the boundaries.
- BitnessNaming.CanonicalStemIsFixedPoint32: a sufficient condition for a
  canonical stem, not a characterisation.
- CreateExcelAddIn.PassCopies: states that every emitted item's descriptor and
  loader copies are made. It does not state that items which are not emitted
  contribute no copies; that follows from the definition of the pass.
- CreateExcelAddIn.PackedXllFileName: the shape of the packed name is stated only
  when the packed suffix holds no separator and no `:`. Its directory is stated
  only when the loader's directory is empty, a root, or ends in neither a
  separator nor `:`; a loader path with doubled separators is not covered.
- BuildItems.VariantOutputDirectory: stated for simple descriptor paths with an
  extension and a bitness suffix free of separators, dots and `:`, and for an
  output directory that is empty, a root, or ends in neither a separator nor `:`.
  `GetDirectoryName` drops a trailing separator such as the one in `bin\`, so
  for such an output directory the equation holds only up to that separator.
- CreateExcelAddIn.ConfigCopiedIffFound: stated for lists of `.config` files,
  which is what the build task passes. The blank test of line 261 is modelled, but a
  blank file name never reaches it.
- AddInSettings.CaseVariantSuffixesFail: one instance (`x32`, `X32`).
  `AddInSettings.RunSanityChecks` states the general rule.
- Scenarios: each scenario is stated for bare file names, except
  `Scenarios.GenericNameInDirectory` and
  `Scenarios.SlashSpelledDirectoryDoesNotCollide`, which hold in any directory
  that is empty, a root, or ends in neither a separator nor `:`. Each is stated
  over every base name and suffix pair that meets its conditions.

=== FILE: build_items.dfy ===
/**
 * From the project's files to the per-descriptor build plan: classification of
 * the inputs, the `BuildItemSpec` of every `.dna` descriptor, the decision whether
 * a descriptor is emitted for a bitness, and the lookup of its `.config` file.
 */
module BuildItems {
  import opened Optional
  import opened Text
  import opened Paths
  import opened Ordering
  import opened AddInSettings
  import opened BitnessNaming

  const DnaExtension: string := ".dna"
  const ConfigExtension: string := ".config"
  const XllExtension: string := ".xll"
  const XllConfigExtension: string := ".xll.config"
  const AppConfigFileName: string := "App.config"

  lemma ExtensionConstants()
    ensures IsExtension(ConfigExtension) && IsExtension(XllExtension)
    ensures XllConfigExtension == XllExtension + ConfigExtension
  {
  }

  /** `Path.GetExtension(p)` equals `ext`, ignoring case. */
  predicate HasExtensionIgnoreCase(p: string, ext: string) {
    EqualsIgnoreCase(Extension(p), ext)
  }

  /** The files `keep` accepts, in input order. */
  function Filter(files: seq<string>, keep: string -> bool): (r: seq<string>)
    ensures forall x :: x in r <==> x in files && keep(x)
  {
    if |files| == 0 then []
    else
      var rest := Filter(files[1..], keep);
      assert files == [files[0]] + files[1..];
      if keep(files[0]) then [files[0]] + rest else rest
  }

  /** The count of `x` in a sequence with `a` in front. */
  lemma CountCons(a: string, rest: seq<string>, x: string)
    ensures multiset([a] + rest)[x] == (if a == x then 1 else 0) + multiset(rest)[x]
  {
    assert multiset([a] + rest) == multiset([a]) + multiset(rest);
  }

  /** Filtering keeps every occurrence of an accepted file and no other file. */
  lemma {:induction false} FilterCount(files: seq<string>, keep: string -> bool, x: string)
    ensures multiset(Filter(files, keep))[x] == if keep(x) then multiset(files)[x] else 0
  {
    if |files| > 0 {
      var head, tail := files[0], files[1..];
      var rest := Filter(tail, keep);
      FilterCount(tail, keep, x);
      assert files == [head] + tail;
      CountCons(head, tail, x);
      if keep(head) {
        assert Filter(files, keep) == [head] + rest;
        CountCons(head, rest, x);
      } else {
        assert Filter(files, keep) == rest;
      }
    }
  }

  /** The input files with extension `ext` (ignoring case), sorted by `le`: the
      `Where(...).OrderBy(item => item.ItemSpec)` of the build task. */
  function FilesWithExtension(files: seq<string>, ext: string, le: (string, string) -> bool): (r: seq<string>)
    ensures forall x :: x in r <==> x in files && HasExtensionIgnoreCase(x, ext)
    ensures forall x :: multiset(r)[x] == if HasExtensionIgnoreCase(x, ext) then multiset(files)[x] else 0
    ensures IsTotalPreorder(le) ==> SortedBy(r, le)
  {
    var keep := (f: string) => HasExtensionIgnoreCase(f, ext);
    var filtered := Filter(files, keep);
    var r := SortBy(filtered, le);
    assert forall x :: x in r <==> x in multiset(filtered);
    forall x ensures multiset(r)[x] == if HasExtensionIgnoreCase(x, ext) then multiset(files)[x] else 0 {
      FilterCount(files, keep, x);
    }
    SortBySortedIf(filtered, le);
    r
  }

  lemma SortBySortedIf(s: seq<string>, le: (string, string) -> bool)
    ensures IsTotalPreorder(le) ==> SortedBy(SortBy(s, le), le)
  {
    if IsTotalPreorder(le) {
      SortBySorted(s, le);
    }
  }

  /** `GetConfigFilesInProject`: the `.config` files of the project, sorted. */
  function ConfigFilesInProject(files: seq<string>, le: (string, string) -> bool): (r: seq<string>)
    ensures forall x :: x in r <==> x in files && HasExtensionIgnoreCase(x, ConfigExtension)
    ensures forall x :: multiset(r)[x] == if HasExtensionIgnoreCase(x, ConfigExtension) then multiset(files)[x] else 0
    ensures IsTotalPreorder(le) ==> SortedBy(r, le)
  {
    FilesWithExtension(files, ConfigExtension, le)
  }

  /** The names of one bitness variant of a descriptor. */
  datatype BitnessVariant = BitnessVariant(
    inputDnaFileName: string,
    inputConfigFileName: string,
    inputConfigFileNameFallback: string,
    outputDnaFileName: string,
    outputXllFileName: string,
    outputConfigFileName: string)

  /** The resolved plan for one `.dna` descriptor of the project. */
  datatype BuildItemSpec = BuildItemSpec(
    inputDnaFileName: string,
    as32Bit: BitnessVariant,
    as64Bit: BitnessVariant)
  {
    function Variant(b: Bitness): BitnessVariant {
      match b
      case Bit32 => as32Bit
      case Bit64 => as64Bit
    }
  }

  /** `GetDnaFileNameAs32Bit` / `GetDnaFileNameAs64Bit`. */
  function DnaFileNameAs(s: Settings, fileName: string, b: Bitness): string {
    FileNameWithBitnessSuffix(fileName, s.FileSuffix(b), s.fileSuffix32Bit, s.fileSuffix64Bit)
  }

  /** `GetAppConfigFileNameAs32Bit` / `GetAppConfigFileNameAs64Bit`: the project-wide
      fallback configuration file, `App.config` derived like a descriptor name. */
  function AppConfigFileNameAs(s: Settings, b: Bitness): string {
    FileNameWithBitnessSuffix(AppConfigFileName, s.FileSuffix(b), s.fileSuffix32Bit, s.fileSuffix64Bit)
  }

  /** The names of the `b` variant of descriptor `fileName`: the derived descriptor
      name, its `.config` sibling and the fallback configuration file as inputs, and
      under the output directory the descriptor, the loader (`.xll`) and the
      loader's configuration file (`.xll.config`). */
  function VariantFor(s: Settings, fileName: string, b: Bitness): BitnessVariant {
    var dna := DnaFileNameAs(s, fileName, b);
    BitnessVariant(
      inputDnaFileName := dna,
      inputConfigFileName := ChangeExtension(dna, ConfigExtension),
      inputConfigFileNameFallback := AppConfigFileNameAs(s, b),
      outputDnaFileName := Combine(s.outDirectory, dna),
      outputXllFileName := Combine(s.outDirectory, ChangeExtension(dna, XllExtension)),
      outputConfigFileName := Combine(s.outDirectory, ChangeExtension(dna, XllConfigExtension)))
  }

  function BuildItemFor(s: Settings, fileName: string): BuildItemSpec {
    BuildItemSpec(fileName, VariantFor(s, fileName, Bit32), VariantFor(s, fileName, Bit64))
  }

  /** The descriptor names of a sequence of items, in order. */
  function InputNames(items: seq<BuildItemSpec>): seq<string> {
    seq(|items|, i requires 0 <= i < |items| => items[i].inputDnaFileName)
  }

  /** `GetBuildItemsForDnaFiles`: one item per `.dna` file of the project (ignoring
      the case of the extension), in sorted order of the file names. */
  function BuildItemsForDnaFiles(s: Settings, files: seq<string>, le: (string, string) -> bool): (r: seq<BuildItemSpec>)
    ensures forall x :: x in InputNames(r) <==> x in files && HasExtensionIgnoreCase(x, DnaExtension)
    ensures forall x :: multiset(InputNames(r))[x]
                     == if HasExtensionIgnoreCase(x, DnaExtension) then multiset(files)[x] else 0
    ensures IsTotalPreorder(le) ==> SortedBy(InputNames(r), le)
    ensures forall i :: 0 <= i < |r| ==> r[i] == BuildItemFor(s, r[i].inputDnaFileName)
  {
    var dnaFiles := FilesWithExtension(files, DnaExtension, le);
    ItemsForNames(s, dnaFiles)
  }

  /** One item per name, in order. */
  function ItemsForNames(s: Settings, names: seq<string>): (r: seq<BuildItemSpec>)
    ensures InputNames(r) == names
    ensures forall i :: 0 <= i < |r| ==> r[i] == BuildItemFor(s, r[i].inputDnaFileName)
  {
    var r := seq(|names|, i requires 0 <= i < |names| => BuildItemFor(s, names[i]));
    assert forall i :: 0 <= i < |names| ==> InputNames(r)[i] == names[i];
    r
  }

  /** Combining a directory with a name whose first two characters are fixed
      commutes with appending to the name. */
  lemma CombineAppend(a: string, y: string, z: string)
    requires |y| >= 2
    ensures Combine(a, y + z) == Combine(a, y) + z
  {
    var yz := y + z;
    assert yz[0] == y[0] && yz[1] == y[1];
    if |a| == 0 {
    } else if IsPathRooted(y) {
      assert IsPathRooted(yz);
    } else if a[|a| - 1] in Separators || a[|a| - 1] == VolumeSeparatorChar {
      assert !IsPathRooted(yz);
      assert a + yz == (a + y) + z;
    } else {
      assert !IsPathRooted(yz);
      assert a + [DirectorySeparatorChar] + yz == (a + [DirectorySeparatorChar] + y) + z;
    }
  }

  /** The derived descriptor name of a file with an extension is not empty. */
  lemma DerivedNameNonEmpty(s: Settings, fileName: string, b: Bitness)
    requires Extension(fileName) != ""
    ensures |DnaFileNameAs(s, fileName, b)| > 0
  {
    var stem := GenericStem(FileNameWithoutExtension(fileName), s.fileSuffix32Bit, s.fileSuffix64Bit);
    var e := Extension(fileName);
    var name := stem + OrEmpty(s.FileSuffix(b)) + e;
    assert DnaFileNameAs(s, fileName, b) == Combine(DirectoryName(fileName), name);
    assert |name| >= |e| > 0;
    CombineNonEmpty(DirectoryName(fileName), name);
  }

  /** The input configuration file of a variant is the derived descriptor name with
      extension `.config`, in the derived descriptor's directory. */
  lemma VariantInputConfigName(s: Settings, fileName: string, b: Bitness)
    requires Extension(fileName) != ""
    ensures var v := VariantFor(s, fileName, b);
            && FileNameWithoutExtension(v.inputConfigFileName) == FileNameWithoutExtension(v.inputDnaFileName)
            && Extension(v.inputConfigFileName) == ConfigExtension
            && DirectoryName(v.inputConfigFileName) == DirectoryName(v.inputDnaFileName)
  {
    var dna := DnaFileNameAs(s, fileName, b);
    DerivedNameNonEmpty(s, fileName, b);
    ExtensionConstants();
    ChangeExtensionFileName(dna, ConfigExtension);
    DerivedNameEndsInExtension(s, fileName, b);
    DirectoryNameOfChangeExtension(dna, ConfigExtension);
  }

  /** A derived descriptor name ends in the last character of the input's
      extension, so its file name is not empty. */
  lemma DerivedNameEndsInExtension(s: Settings, fileName: string, b: Bitness)
    requires Extension(fileName) != ""
    ensures var dna := DnaFileNameAs(s, fileName, b);
            |dna| > 0 && dna[|dna| - 1] !in NameBoundaries
  {
    var e := Extension(fileName);
    var front := GenericStem(FileNameWithoutExtension(fileName), s.fileSuffix32Bit, s.fileSuffix64Bit)
                 + OrEmpty(s.FileSuffix(b));
    assert DnaFileNameAs(s, fileName, b) == Combine(DirectoryName(fileName), front + e);
    CombineEndsLikeName(DirectoryName(fileName), front + e);
    assert (front + e)[|front + e| - 1] == e[|e| - 1];
  }

  /** The outputs of a variant agree with each other: the staged descriptor keeps
      the derived file name, the loader carries the derived stem with extension
      `.xll`, and the loader's configuration file is the loader's name followed by
      `.config`. */
  lemma VariantOutputNames(s: Settings, fileName: string, b: Bitness)
    requires Extension(fileName) != ""
    ensures var v := VariantFor(s, fileName, b);
            && FileName(v.outputDnaFileName) == FileName(v.inputDnaFileName)
            && FileNameWithoutExtension(v.outputXllFileName) == FileNameWithoutExtension(v.inputDnaFileName)
            && Extension(v.outputXllFileName) == XllExtension
            && v.outputConfigFileName == v.outputXllFileName + ConfigExtension
  {
    var dna := DnaFileNameAs(s, fileName, b);
    DerivedNameNonEmpty(s, fileName, b);
    ExtensionConstants();
    ChangeExtensionFileName(dna, XllExtension);
    var xll := ChangeExtension(dna, XllExtension);
    FileNameOfCombine(s.outDirectory, dna);
    FileNameOfCombine(s.outDirectory, xll);
    ChangeExtensionAppend(dna, XllExtension, ConfigExtension);
    assert |xll| >= 2 by {
      assert xll == dna[..|dna| - |FileName(dna)|] + FileNameWithoutExtension(dna) + XllExtension;
    }
    CombineAppend(s.outDirectory, xll, ConfigExtension);
  }

  /** On a simple descriptor path with a plain bitness suffix, the staged
      descriptor and the loader both land in the descriptor's own directory placed
      under the output directory. */
  lemma VariantOutputDirectory(s: Settings, fileName: string, b: Bitness)
    requires IsSimplePath(fileName) && Extension(fileName) != ""
    requires IsPlainSuffix(OrEmpty(s.FileSuffix(b)))
    requires IsDirectoryPart(s.outDirectory)
    ensures var v := VariantFor(s, fileName, b);
            && DirectoryName(v.outputDnaFileName) == WithBackslashes(Combine(s.outDirectory, DirectoryName(fileName)))
            && DirectoryName(v.outputXllFileName) == WithBackslashes(Combine(s.outDirectory, DirectoryName(fileName)))
  {
    var d := DirectoryName(fileName);
    var g := GenericStem(FileNameWithoutExtension(fileName), s.fileSuffix32Bit, s.fileSuffix64Bit);
    var stem := g + OrEmpty(s.FileSuffix(b));
    var e := Extension(fileName);
    assert DnaFileNameAs(s, fileName, b) == Combine(d, stem + e);
    SimplePathDirectory(fileName);
    StemAndExtensionArePlain(fileName, g);
    PlainNameAppend(g, OrEmpty(s.FileSuffix(b)));
    ExtensionIsPlain(e);
    PlainNameAppend(stem, e);
    CombineAssociates(s.outDirectory, d, stem + e);
    DirectoryNameOfCombine(Combine(s.outDirectory, d), stem + e);
    ExtensionConstants();
    ChangeExtensionOfCombine(d, stem, e, XllExtension);
    ExtensionIsPlain(XllExtension);
    PlainNameAppend(stem, XllExtension);
    CombineAssociates(s.outDirectory, d, stem + XllExtension);
    DirectoryNameOfCombine(Combine(s.outDirectory, d), stem + XllExtension);
  }

  /** Some descriptor of the project has name `name`, ignoring case. */
  predicate SpecificFileExists(name: string, items: seq<BuildItemSpec>) {
    exists bi :: bi in items && EqualsIgnoreCase(name, bi.inputDnaFileName)
  }

  /** `ShouldCopy32BitDnaOutput` / `ShouldCopy64BitDnaOutput`: a descriptor is
      emitted for `b` when its name already is its `b` name (compared ordinally), or
      when no descriptor of the project carries that `b` name (ignoring case). */
  predicate ShouldCopyDnaOutput(item: BuildItemSpec, items: seq<BuildItemSpec>, b: Bitness) {
    var derived := item.Variant(b).inputDnaFileName;
    item.inputDnaFileName == derived || !SpecificFileExists(derived, items)
  }

  /** A descriptor whose name differs from its `b` name in letter case only collides
      with itself and is not emitted for `b`. */
  lemma CaseVariantOfOwnNameIsSkipped(item: BuildItemSpec, items: seq<BuildItemSpec>, b: Bitness)
    requires item in items
    requires item.inputDnaFileName != item.Variant(b).inputDnaFileName
    requires EqualsIgnoreCase(item.inputDnaFileName, item.Variant(b).inputDnaFileName)
    ensures !ShouldCopyDnaOutput(item, items, b)
  {
    assert EqualsIgnoreCase(item.Variant(b).inputDnaFileName, item.inputDnaFileName);
  }

  /** The folded descriptor names of the project: the case-insensitive index the
      collision test can consult instead of scanning all items. */
  method FoldedNameIndex(items: seq<BuildItemSpec>) returns (index: set<string>)
    ensures forall x :: x in index <==> exists k :: 0 <= k < |items| && Fold(items[k].inputDnaFileName) == x
  {
    index := {};
    var i := 0;
    while i < |items|
      invariant 0 <= i <= |items|
      invariant forall x :: x in index <==> exists k :: 0 <= k < i && Fold(items[k].inputDnaFileName) == x
    {
      index := index + {Fold(items[i].inputDnaFileName)};
      i := i + 1;
    }
  }

  /** Looking a folded name up in the index answers the collision test. */
  lemma FoldedNameIndexAnswersCollision(name: string, items: seq<BuildItemSpec>, index: set<string>)
    requires forall x :: x in index <==> exists k :: 0 <= k < |items| && Fold(items[k].inputDnaFileName) == x
    ensures Fold(name) in index <==> SpecificFileExists(name, items)
  {
    if Fold(name) in index {
      var k :| 0 <= k < |items| && Fold(items[k].inputDnaFileName) == Fold(name);
      assert items[k] in items;
    }
    if SpecificFileExists(name, items) {
      var bi :| bi in items && EqualsIgnoreCase(name, bi.inputDnaFileName);
      var k :| 0 <= k < |items| && items[k] == bi;
      assert Fold(items[k].inputDnaFileName) == Fold(name);
    }
  }

  /** The emission decisions for every item and bitness `b`, made with one index of
      folded names instead of one scan of all items per item. */
  method DecideEmission(s: Settings, items: seq<BuildItemSpec>, b: Bitness) returns (emit: seq<bool>)
    ensures |emit| == |items|
    ensures forall i :: 0 <= i < |items| ==>
              (emit[i] <==> s.CreateAddIn(b) && ShouldCopyDnaOutput(items[i], items, b))
  {
    var index := FoldedNameIndex(items);
    emit := [];
    var i := 0;
    while i < |items|
      invariant 0 <= i <= |items|
      invariant |emit| == i
      invariant forall k :: 0 <= k < i ==>
                  (emit[k] <==> s.CreateAddIn(b) && ShouldCopyDnaOutput(items[k], items, b))
    {
      var item := items[i];
      var derived := item.Variant(b).inputDnaFileName;
      FoldedNameIndexAnswersCollision(derived, items, index);
      var e := s.CreateAddIn(b) && (item.inputDnaFileName == derived || Fold(derived) !in index);
      emit := emit + [e];
      i := i + 1;
    }
  }

  /** Some configuration file of the project has name `name`, ignoring case. */
  predicate ContainsIgnoreCase(configs: seq<string>, name: string) {
    exists c :: c in configs && EqualsIgnoreCase(c, name)
  }

  /** The index of the first file named `name` (ignoring case): `FirstOrDefault`. */
  function FirstIndexIgnoreCase(configs: seq<string>, name: string): (r: Option<nat>)
    ensures r.Some? ==> r.value < |configs| && EqualsIgnoreCase(configs[r.value], name)
    ensures r.Some? ==> forall j :: 0 <= j < r.value ==> !EqualsIgnoreCase(configs[j], name)
    ensures r.None? <==> !ContainsIgnoreCase(configs, name)
  {
    if |configs| == 0 then None
    else if EqualsIgnoreCase(configs[0], name) then Some(0)
    else
      match FirstIndexIgnoreCase(configs[1..], name)
      case Some(k) => Some(k + 1)
      case None =>
        assert forall c :: c in configs ==> c == configs[0] || c in configs[1..];
        None
  }

  /** `TryFindAppConfigFileName`: the configuration file for a descriptor variant, by
      priority: the descriptor's own `.config` name; else the fallback `App.config`
      variant; else the project's own spelling of `App.config`; else none. The first
      two are returned as asked for, the third as the project spells it. */
  function TryFindAppConfigFileName(preferred: string, fallback: string, configs: seq<string>): (r: Option<string>)
    ensures r.Some? ==> ContainsIgnoreCase(configs, r.value)
    ensures ContainsIgnoreCase(configs, preferred) ==> r == Some(preferred)
    ensures !ContainsIgnoreCase(configs, preferred) && ContainsIgnoreCase(configs, fallback) ==> r == Some(fallback)
    ensures !ContainsIgnoreCase(configs, preferred) && !ContainsIgnoreCase(configs, fallback) ==>
              (r.Some? <==> ContainsIgnoreCase(configs, AppConfigFileName))
    ensures !ContainsIgnoreCase(configs, preferred) && !ContainsIgnoreCase(configs, fallback) && r.Some? ==>
              exists k :: && 0 <= k < |configs| && configs[k] == r.value
                          && EqualsIgnoreCase(r.value, AppConfigFileName)
                          && forall j :: 0 <= j < k ==> !EqualsIgnoreCase(configs[j], AppConfigFileName)
  {
    if ContainsIgnoreCase(configs, preferred) then Some(preferred)
    else if ContainsIgnoreCase(configs, fallback) then Some(fallback)
    else
      match FirstIndexIgnoreCase(configs, AppConfigFileName)
      case Some(k) =>
        assert configs[k] in configs;
        Some(configs[k])
      case None => None
  }
}

=== FILE: create_excel_addin.dfy ===
/**
 * The CreateExcelAddIn build task: sanity checks, then for 32-bit and then 64-bit
 * every emitted descriptor is staged into the output directory together with the
 * loader and its configuration file, and recorded for packing. File copies are not
 * performed but returned, in order, as a plan.
 */
module CreateExcelAddIn {
  import opened Optional
  import opened Text
  import opened Paths
  import opened Ordering
  import opened AddInSettings
  import opened BuildItems

  /** A copy of `source` over `destination` (always overwriting). */
  datatype FileCopy = FileCopy(source: string, destination: string)

  /** One entry of `DnaFilesToPack`: the staged descriptor with its metadata. */
  datatype PackItem = PackItem(
    outputDnaFileName: string,
    outputPackedXllFileName: string,
    outputXllConfigFileName: string)

  /** The copies a run makes, in order, and the list of files to pack. */
  datatype BuildPlan = BuildPlan(copies: seq<FileCopy>, dnaFilesToPack: seq<PackItem>) {
    function Then(next: BuildPlan): BuildPlan {
      BuildPlan(copies + next.copies, dnaFilesToPack + next.dnaFilesToPack)
    }
  }

  const EmptyPlan := BuildPlan([], [])

  /** `Execute` returns false after a failed sanity check, with nothing copied or
      recorded, and true with the complete plan otherwise. */
  datatype TaskResult = Failed(error: SanityError) | Succeeded(plan: BuildPlan)

  /** The name under which the packed loader is recorded: with a non-blank
      `PackedFileSuffix`, the loader's stem followed by that suffix and `.xll`, in the
      loader's directory; otherwise the loader's own name. */
  function PackedXllFileName(s: Settings, outputXllFileName: string): (r: string)
    ensures IsNullOrWhiteSpace(s.packedFileSuffix) ==> r == outputXllFileName
    ensures !IsNullOrWhiteSpace(s.packedFileSuffix) && IsPlainName(s.packedFileSuffix.value) ==>
              && FileName(r) == FileNameWithoutExtension(outputXllFileName) + s.packedFileSuffix.value + XllExtension
              && Extension(r) == XllExtension
              && (IsDirectoryPart(DirectoryName(outputXllFileName)) ==>
                    DirectoryName(r) == DirectoryName(outputXllFileName))
  {
    if IsNullOrWhiteSpace(s.packedFileSuffix) then outputXllFileName
    else
      var d := DirectoryName(outputXllFileName);
      var stem := FileNameWithoutExtension(outputXllFileName) + s.packedFileSuffix.value;
      PackedNameShape(d, FileNameWithoutExtension(outputXllFileName), s.packedFileSuffix.value);
      WithBackslashesFacts(d);
      Combine(d, stem + XllExtension)
  }

  lemma PackedNameShape(d: string, stem: string, suffix: string)
    requires IsPlainName(stem)
    ensures IsPlainName(suffix) ==>
              && FileName(Combine(d, stem + suffix + XllExtension)) == stem + suffix + XllExtension
              && Extension(Combine(d, stem + suffix + XllExtension)) == XllExtension
              && (IsDirectoryPart(d) ==> DirectoryName(Combine(d, stem + suffix + XllExtension)) == WithBackslashes(d))
  {
    if IsPlainName(suffix) {
      var name := stem + suffix;
      var full := name + XllExtension;
      PlainNameAppend(stem, suffix);
      assert IsExtension(XllExtension);
      SplitFileName(name, XllExtension);
      FileNameOfCombine(d, full);
      if IsDirectoryPart(d) {
        CombineNameParts(d, name, XllExtension);
      }
    }
  }

  /** `AddDnaToListOfFilesToPack`: nothing unless packing is enabled. */
  function AddDnaToListOfFilesToPack(s: Settings, v: BitnessVariant): seq<PackItem> {
    if s.packIsEnabled then
      [PackItem(v.outputDnaFileName, PackedXllFileName(s, v.outputXllFileName), v.outputConfigFileName)]
    else []
  }

  /** `TryCopyConfigFileToOutput`: copy the configuration file the priority chain
      finds, if any, over the loader's configuration file. */
  function ConfigCopy(configs: seq<string>, v: BitnessVariant): (r: seq<FileCopy>)
    ensures |r| <= 1
    ensures forall c :: c in r ==>
              && c.destination == v.outputConfigFileName
              && ContainsIgnoreCase(configs, c.source)
              && !IsNullOrWhiteSpace(Some(c.source))
  {
    match TryFindAppConfigFileName(v.inputConfigFileName, v.inputConfigFileNameFallback, configs)
    case Some(c) => if !IsNullOrWhiteSpace(Some(c)) then [FileCopy(c, v.outputConfigFileName)] else []
    case None => []
  }

  /** A name with an extension is not blank: it holds a dot. */
  lemma NameWithExtensionIsNotBlank(c: string)
    requires Extension(c) != ""
    ensures !IsNullOrWhiteSpace(Some(c))
  {
    ExtensionHasDot(c);
    DotIsNotWhiteSpace();
    HoldsNonBlank(c, '.');
  }

  /** With configuration files that all have the `.config` extension, the blank
      test of `TryCopyConfigFileToOutput` never fires: the configuration file is
      copied exactly when the priority chain finds one. */
  lemma ConfigCopiedIffFound(configs: seq<string>, v: BitnessVariant)
    requires forall c :: c in configs ==> HasExtensionIgnoreCase(c, ConfigExtension)
    ensures var found := TryFindAppConfigFileName(v.inputConfigFileName, v.inputConfigFileNameFallback, configs);
            && (found.None? ==> ConfigCopy(configs, v) == [])
            && (found.Some? ==> ConfigCopy(configs, v) == [FileCopy(found.value, v.outputConfigFileName)])
  {
    var found := TryFindAppConfigFileName(v.inputConfigFileName, v.inputConfigFileNameFallback, configs);
    if found.Some? {
      var c :| c in configs && EqualsIgnoreCase(c, found.value);
      assert |Extension(c)| == |ConfigExtension|;
      NameWithExtensionIsNotBlank(c);
      EqualsIgnoreCaseKeepsNonBlank(found.value, c);
    }
  }

  /** Staging one emitted descriptor for `b`: the descriptor, then the loader, then
      the configuration file when there is one; then the entry to pack. */
  function StageItem(s: Settings, configs: seq<string>, item: BuildItemSpec, b: Bitness): BuildPlan {
    var v := item.Variant(b);
    BuildPlan(
      [FileCopy(item.inputDnaFileName, v.outputDnaFileName), FileCopy(s.XllFilePath(b), v.outputXllFileName)]
        + ConfigCopy(configs, v),
      AddDnaToListOfFilesToPack(s, v))
  }

  /** Whether `item` is emitted for `b` in a run over `items`. */
  predicate IsEmitted(s: Settings, item: BuildItemSpec, items: seq<BuildItemSpec>, b: Bitness) {
    s.CreateAddIn(b) && ShouldCopyDnaOutput(item, items, b)
  }

  /** `TryBuildAddInFor32Bit` / `TryBuildAddInFor64Bit` over the first `n` items: the
      collision test always looks at all of `items`. */
  function TryBuildAddIn(s: Settings, configs: seq<string>, items: seq<BuildItemSpec>, b: Bitness, n: nat): BuildPlan
    requires n <= |items|
  {
    if n == 0 then EmptyPlan
    else
      var before := TryBuildAddIn(s, configs, items, b, n - 1);
      if IsEmitted(s, items[n - 1], items, b) then before.Then(StageItem(s, configs, items[n - 1], b))
      else before
  }

  function TryBuildAddInFor(s: Settings, configs: seq<string>, items: seq<BuildItemSpec>, b: Bitness): BuildPlan {
    TryBuildAddIn(s, configs, items, b, |items|)
  }

  /** `Execute`: the sanity checks, then classification, then the 32-bit pass and the
      64-bit pass. `existingFiles` are the paths the file system reports as
      existing; `le` is the order of `OrderBy`. */
  function Execute(s: Settings, existingFiles: set<string>, filesInProject: seq<string>,
                   le: (string, string) -> bool): (r: TaskResult)
    ensures r.Failed? <==> || s.xll32FilePath !in existingFiles
                           || s.xll64FilePath !in existingFiles
                           || NullableEqualsIgnoreCase(s.fileSuffix32Bit, s.fileSuffix64Bit)
    ensures r.Failed? ==> r.error == RunSanityChecks(s, existingFiles).value
  {
    match RunSanityChecks(s, existingFiles)
    case Some(e) => Failed(e)
    case None =>
      var configs := ConfigFilesInProject(filesInProject, le);
      var items := BuildItemsForDnaFiles(s, filesInProject, le);
      Succeeded(TryBuildAddInFor(s, configs, items, Bit32).Then(TryBuildAddInFor(s, configs, items, Bit64)))
  }

  /** The items among the first `n` that are emitted for `b`, in order. */
  function EmittedItems(s: Settings, items: seq<BuildItemSpec>, b: Bitness, n: nat): (r: seq<BuildItemSpec>)
    requires n <= |items|
    ensures forall x :: x in r <==> exists k :: 0 <= k < n && items[k] == x && IsEmitted(s, x, items, b)
  {
    if n == 0 then []
    else
      var before := EmittedItems(s, items, b, n - 1);
      if IsEmitted(s, items[n - 1], items, b) then before + [items[n - 1]] else before
  }

  /** The pack entries of a sequence of emitted items, in order. */
  function PackItemsOf(s: Settings, emitted: seq<BuildItemSpec>, b: Bitness): (r: seq<PackItem>)
    ensures |r| == |emitted|
  {
    if |emitted| == 0 then []
    else PackItemsOf(s, emitted[..|emitted| - 1], b)
         + [PackItem(emitted[|emitted| - 1].Variant(b).outputDnaFileName,
                     PackedXllFileName(s, emitted[|emitted| - 1].Variant(b).outputXllFileName),
                     emitted[|emitted| - 1].Variant(b).outputConfigFileName)]
  }

  /** A pass records exactly one pack entry per emitted item, in item order, when
      packing is enabled, and none otherwise. */
  lemma {:induction false} PassPackItems(s: Settings, configs: seq<string>, items: seq<BuildItemSpec>, b: Bitness, n: nat)
    requires n <= |items|
    ensures TryBuildAddIn(s, configs, items, b, n).dnaFilesToPack
         == if s.packIsEnabled then PackItemsOf(s, EmittedItems(s, items, b, n), b) else []
  {
    if n > 0 {
      PassPackItems(s, configs, items, b, n - 1);
      var before := EmittedItems(s, items, b, n - 1);
      if IsEmitted(s, items[n - 1], items, b) {
        assert (before + [items[n - 1]])[..|before|] == before;
      }
    }
  }

  /** A disabled bitness copies nothing and records nothing. */
  lemma {:induction false} DisabledBitnessStagesNothing(s: Settings, configs: seq<string>, items: seq<BuildItemSpec>, b: Bitness, n: nat)
    requires n <= |items|
    requires !s.CreateAddIn(b)
    ensures TryBuildAddIn(s, configs, items, b, n) == EmptyPlan
  {
    if n > 0 {
      DisabledBitnessStagesNothing(s, configs, items, b, n - 1);
    }
  }

  /** Staging starts with the descriptor copy and the loader copy. */
  lemma StageItemLeadingCopies(s: Settings, configs: seq<string>, item: BuildItemSpec, b: Bitness)
    ensures var copies := StageItem(s, configs, item, b).copies;
            && |copies| >= 2
            && copies[0] == FileCopy(item.inputDnaFileName, item.Variant(b).outputDnaFileName)
            && copies[1] == FileCopy(s.XllFilePath(b), item.Variant(b).outputXllFileName)
  {
  }

  /** The copies of a pass: each emitted item contributes its own copies, in item
      order, and they start with the descriptor and the loader. */
  lemma {:induction false} PassCopies(s: Settings, configs: seq<string>, items: seq<BuildItemSpec>, b: Bitness, n: nat, k: nat)
    requires k < n <= |items|
    requires IsEmitted(s, items[k], items, b)
    ensures FileCopy(items[k].inputDnaFileName, items[k].Variant(b).outputDnaFileName)
            in TryBuildAddIn(s, configs, items, b, n).copies
    ensures FileCopy(s.XllFilePath(b), items[k].Variant(b).outputXllFileName)
            in TryBuildAddIn(s, configs, items, b, n).copies
  {
    var before := TryBuildAddIn(s, configs, items, b, n - 1);
    if k < n - 1 {
      PassCopies(s, configs, items, b, n - 1, k);
      if IsEmitted(s, items[n - 1], items, b) {
        ThenKeepsCopies(before, StageItem(s, configs, items[n - 1], b));
      }
    } else {
      var staged := StageItem(s, configs, items[k], b);
      StageItemLeadingCopies(s, configs, items[k], b);
      ThenAddsCopies(before, staged);
    }
  }

  /** Following a plan by another keeps the first plan's copies. */
  lemma ThenKeepsCopies(before: BuildPlan, next: BuildPlan)
    ensures forall c :: c in before.copies ==> c in before.Then(next).copies
  {
  }

  /** Following a plan by another adds the other plan's copies. */
  lemma ThenAddsCopies(before: BuildPlan, next: BuildPlan)
    ensures forall c :: c in next.copies ==> c in before.Then(next).copies
  {
  }

  /** When execution succeeds, the manifest is empty unless packing is enabled, and
      otherwise holds one entry per emitted (descriptor, bitness) pair: all 32-bit
      entries in descriptor order, then all 64-bit entries in descriptor order. */
  lemma ManifestLayout(s: Settings, existingFiles: set<string>, filesInProject: seq<string>,
                       le: (string, string) -> bool)
    requires RunSanityChecks(s, existingFiles).None?
    ensures var items := BuildItemsForDnaFiles(s, filesInProject, le);
            var manifest := Execute(s, existingFiles, filesInProject, le).plan.dnaFilesToPack;
            && (!s.packIsEnabled ==> manifest == [])
            && (s.packIsEnabled ==>
                  manifest == PackItemsOf(s, EmittedItems(s, items, Bit32, |items|), Bit32)
                            + PackItemsOf(s, EmittedItems(s, items, Bit64, |items|), Bit64))
  {
    var configs := ConfigFilesInProject(filesInProject, le);
    var items := BuildItemsForDnaFiles(s, filesInProject, le);
    PassPackItems(s, configs, items, Bit32, |items|);
    PassPackItems(s, configs, items, Bit64, |items|);
  }

  /** A descriptor of the project whose name already is its `b` name is emitted for
      `b` whenever `b` is enabled: its descriptor and loader are copied. */
  lemma CanonicalNamePassesThrough(s: Settings, existingFiles: set<string>, filesInProject: seq<string>,
                                   le: (string, string) -> bool, k: nat, b: Bitness)
    requires RunSanityChecks(s, existingFiles).None?
    ensures var items := BuildItemsForDnaFiles(s, filesInProject, le);
            var copies := Execute(s, existingFiles, filesInProject, le).plan.copies;
            k < |items| && items[k].inputDnaFileName == items[k].Variant(b).inputDnaFileName && s.CreateAddIn(b) ==>
              && FileCopy(items[k].inputDnaFileName, items[k].Variant(b).outputDnaFileName) in copies
              && FileCopy(s.XllFilePath(b), items[k].Variant(b).outputXllFileName) in copies
  {
    var configs := ConfigFilesInProject(filesInProject, le);
    var items := BuildItemsForDnaFiles(s, filesInProject, le);
    if k < |items| && items[k].inputDnaFileName == items[k].Variant(b).inputDnaFileName && s.CreateAddIn(b) {
      PassCopies(s, configs, items, b, |items|, k);
    }
  }

  /** A successful run is the 32-bit pass followed by the 64-bit pass. */
  lemma SucceededPlan(s: Settings, existingFiles: set<string>, filesInProject: seq<string>,
                      le: (string, string) -> bool)
    requires RunSanityChecks(s, existingFiles).None?
    ensures var configs := ConfigFilesInProject(filesInProject, le);
            var items := BuildItemsForDnaFiles(s, filesInProject, le);
            Execute(s, existingFiles, filesInProject, le).plan
            == TryBuildAddInFor(s, configs, items, Bit32).Then(TryBuildAddInFor(s, configs, items, Bit64))
  {
  }

  /** When a bitness is disabled, the run's plan is exactly the other bitness' pass. */
  lemma DisabledBitnessContributesNothing(s: Settings, existingFiles: set<string>, filesInProject: seq<string>,
                                          le: (string, string) -> bool, b: Bitness)
    requires RunSanityChecks(s, existingFiles).None?
    requires !s.CreateAddIn(b)
    ensures var configs := ConfigFilesInProject(filesInProject, le);
            var items := BuildItemsForDnaFiles(s, filesInProject, le);
            var other := if b == Bit32 then Bit64 else Bit32;
            Execute(s, existingFiles, filesInProject, le).plan == TryBuildAddInFor(s, configs, items, other)
  {
    var configs := ConfigFilesInProject(filesInProject, le);
    var items := BuildItemsForDnaFiles(s, filesInProject, le);
    SucceededPlan(s, existingFiles, filesInProject, le);
    DisabledBitnessStagesNothing(s, configs, items, b, |items|);
    ThenEmpty(TryBuildAddInFor(s, configs, items, Bit32));
    ThenEmpty(TryBuildAddInFor(s, configs, items, Bit64));
  }

  /** The empty plan is a unit of `Then`. */
  lemma ThenEmpty(p: BuildPlan)
    ensures EmptyPlan.Then(p) == p && p.Then(EmptyPlan) == p
  {
    assert [] + p.copies == p.copies && [] + p.dnaFilesToPack == p.dnaFilesToPack;
    assert p.copies + [] == p.copies && p.dnaFilesToPack + [] == p.dnaFilesToPack;
  }

  /** Under a total order of file names, the outcome of a run depends only on which
      files the project holds, not on the order in which they are listed. */
  lemma InputOrderIsIrrelevant(s: Settings, existingFiles: set<string>, files1: seq<string>, files2: seq<string>,
                               le: (string, string) -> bool)
    requires IsTotalOrder(le)
    requires multiset(files1) == multiset(files2)
    ensures Execute(s, existingFiles, files1, le) == Execute(s, existingFiles, files2, le)
  {
    SameFilesWithExtension(files1, files2, ConfigExtension, le);
    SameFilesWithExtension(files1, files2, DnaExtension, le);
    var dna1 := FilesWithExtension(files1, DnaExtension, le);
    var items1 := BuildItemsForDnaFiles(s, files1, le);
    var items2 := BuildItemsForDnaFiles(s, files2, le);
    assert InputNames(items1) == InputNames(items2);
    assert items1 == items2 by {
      forall i | 0 <= i < |items1| ensures items1[i] == items2[i] {
        assert items1[i].inputDnaFileName == InputNames(items1)[i];
      }
    }
  }

  lemma SameFilesWithExtension(files1: seq<string>, files2: seq<string>, ext: string,
                               le: (string, string) -> bool)
    requires IsTotalOrder(le)
    requires multiset(files1) == multiset(files2)
    ensures FilesWithExtension(files1, ext, le) == FilesWithExtension(files2, ext, le)
  {
    var a := FilesWithExtension(files1, ext, le);
    var b := FilesWithExtension(files2, ext, le);
    assert multiset(a) == multiset(b) by {
      forall x ensures multiset(a)[x] == multiset(b)[x] {
      }
    }
    SortedUnique(a, b, le);
  }

  /** The 32-bit or 64-bit pass computed with the folded-name index: the same plan
      as the pass that scans all items for every item. */
  method TryBuildAddInIndexed(s: Settings, configs: seq<string>, items: seq<BuildItemSpec>, b: Bitness)
    returns (plan: BuildPlan)
    ensures plan == TryBuildAddInFor(s, configs, items, b)
  {
    var emit := DecideEmission(s, items, b);
    plan := EmptyPlan;
    var i := 0;
    while i < |items|
      invariant 0 <= i <= |items|
      invariant plan == TryBuildAddIn(s, configs, items, b, i)
    {
      if emit[i] {
        plan := plan.Then(StageItem(s, configs, items[i], b));
      }
      i := i + 1;
    }
  }
}

=== FILE: naming.dfy ===
/**
 * Derivation of the 32-bit and 64-bit variant of a file name
 * (`GetFileNameWithBitnessSuffix`): both bitness suffixes are stripped from the
 * name's stem, then the target suffix is appended before the extension.
 */
module BitnessNaming {
  import opened Optional
  import opened Text
  import opened Paths

  /** `marker` is set, not blank, and occurs in `stem` (ignoring case) somewhere
      after the first character. */
  ghost predicate Strippable(stem: string, marker: Option<string>) {
    !IsNullOrWhiteSpace(marker) && exists i :: 0 < i && OccursAt(stem, marker.value, i)
  }

  /** One stripping step: the stem is cut at the last occurrence of the marker, and
      everything from there to the end is dropped. A blank marker, a marker that is
      absent, or one found only at index 0 leaves the stem alone. */
  function StripMarker(stem: string, marker: Option<string>): (r: string)
    ensures r <= stem
    ensures r == stem <==> !Strippable(stem, marker)
    ensures r != stem ==> && 0 < |r|
                          && OccursAt(stem, marker.value, |r|)
                          && forall j :: |r| < j ==> !OccursAt(stem, marker.value, j)
  {
    if IsNullOrWhiteSpace(marker) then stem
    else
      match LastIndexOfIgnoreCase(stem, marker.value)
      case Some(i) => if i > 0 then stem[..i] else stem
      case None => stem
  }

  /** The stem with the 32-bit suffix and then the 64-bit suffix stripped. */
  function GenericStem(stem: string, suffix32: Option<string>, suffix64: Option<string>): (r: string)
    ensures r <= stem
    ensures |stem| > 0 ==> |r| > 0
    ensures !Strippable(stem, suffix32) && !Strippable(stem, suffix64) ==> r == stem
  {
    StripMarker(StripMarker(stem, suffix32), suffix64)
  }

  /** `GetFileNameWithBitnessSuffix(fileName, suffix)` with the build task's two bitness
      suffixes: same directory, generic stem followed by `suffix`, same extension. */
  function FileNameWithBitnessSuffix(fileName: string, suffix: Option<string>,
                                     suffix32: Option<string>, suffix64: Option<string>): string
  {
    var stem := GenericStem(FileNameWithoutExtension(fileName), suffix32, suffix64);
    Combine(DirectoryName(fileName), stem + OrEmpty(suffix) + Extension(fileName))
  }

  /** A suffix that can sit inside a file name without changing its directory or
      its extension. */
  predicate IsPlainSuffix(s: string) {
    forall i :: 0 <= i < |s| ==> s[i] !in NameBoundaries && s[i] != '.'
  }

  /** Every prefix of a path's stem, and its extension, are plain names. */
  lemma StemAndExtensionArePlain(p: string, g: string)
    requires g <= FileNameWithoutExtension(p)
    ensures IsPlainName(g) && IsPlainName(Extension(p))
  {
    var n := FileNameWithoutExtension(p);
    forall i | 0 <= i < |g| ensures g[i] !in NameBoundaries {
      assert g[i] == n[i];
    }
    if Extension(p) != "" {
      ExtensionIsPlain(Extension(p));
    }
  }

  /** The derived name keeps the directory and the extension of the input, and its
      stem is the generic stem (a non-empty prefix of the input's stem when that is
      non-empty) followed by the target suffix. */
  lemma DerivedNameShape(fileName: string, suffix: Option<string>,
                         suffix32: Option<string>, suffix64: Option<string>)
    requires IsSimplePath(fileName) && Extension(fileName) != ""
    requires IsPlainSuffix(OrEmpty(suffix))
    ensures var r := FileNameWithBitnessSuffix(fileName, suffix, suffix32, suffix64);
            var stem := FileNameWithoutExtension(fileName);
            && DirectoryName(r) == DirectoryName(fileName)
            && Extension(r) == Extension(fileName)
            && FileNameWithoutExtension(r) == GenericStem(stem, suffix32, suffix64) + OrEmpty(suffix)
            && GenericStem(stem, suffix32, suffix64) <= stem
  {
    var stem := FileNameWithoutExtension(fileName);
    var g := GenericStem(stem, suffix32, suffix64);
    var e := Extension(fileName);
    var d := DirectoryName(fileName);
    assert FileNameWithBitnessSuffix(fileName, suffix, suffix32, suffix64)
        == Combine(d, g + OrEmpty(suffix) + e);
    SimplePathDirectory(fileName);
    WithBackslashesFacts(d);
    StemAndExtensionArePlain(fileName, g);
    PlainNameAppend(g, OrEmpty(suffix));
    CombineNameParts(d, g + OrEmpty(suffix), e);
  }

  /** Stripping a marker from a stem that ends in it recovers the stem, however the
      stem looks: the last occurrence is the final one. */
  lemma StripOwnSuffix(base: string, marker: string)
    requires |base| > 0 && !IsNullOrWhiteSpace(Some(marker))
    ensures StripMarker(base + marker, Some(marker)) == base
  {
    var s := base + marker;
    assert s[|base|..|base| + |marker|] == marker;
    assert OccursAt(s, marker, |base|);
    assert s[..|base|] == base;
  }

  /** A name already carrying the bitness suffix for `b` after a base name that the
      other suffix cannot strip is its own derived name for `b`: such canonical
      names pass through derivation unchanged. */
  lemma CanonicalStemIsFixedPoint32(base: string, suffix32: string, suffix64: Option<string>)
    requires |base| > 0 && !IsNullOrWhiteSpace(Some(suffix32))
    requires !Strippable(base, suffix64)
    ensures GenericStem(base + suffix32, Some(suffix32), suffix64) + suffix32 == base + suffix32
  {
    StripOwnSuffix(base, suffix32);
  }

  /** The 64-bit counterpart: here the 32-bit suffix is stripped first, so it must
      not occur in the canonical stem. */
  lemma CanonicalStemIsFixedPoint64(base: string, suffix32: Option<string>, suffix64: string)
    requires |base| > 0 && !IsNullOrWhiteSpace(Some(suffix64))
    requires !Strippable(base + suffix64, suffix32)
    ensures GenericStem(base + suffix64, suffix32, Some(suffix64)) + suffix64 == base + suffix64
  {
    StripOwnSuffix(base, suffix64);
  }

  /** The file-level fixed point: when the stem of a simple path is already its
      generic stem followed by the target suffix, derivation returns the path. */
  lemma CanonicalNameIsFixedPoint(fileName: string, suffix: Option<string>,
                                  suffix32: Option<string>, suffix64: Option<string>)
    requires IsSimplePath(fileName) && Extension(fileName) != ""
    requires IsPlainSuffix(OrEmpty(suffix))
    requires var stem := FileNameWithoutExtension(fileName);
             GenericStem(stem, suffix32, suffix64) + OrEmpty(suffix) == stem
    ensures FileNameWithBitnessSuffix(fileName, suffix, suffix32, suffix64) == fileName
  {
    ExtensionSplit(fileName);
    assert FileName(fileName) != "";
    SplitCombine(fileName);
  }
}

=== FILE: optional.dfy ===
/** A value that may be absent: the model's stand-in for a .NET reference that may be null. */
module Optional {

  datatype Option<+T> = None | Some(value: T) {

    /** The value, or the given default when absent. */
    function GetOr(default: T): T {
      match this
      case Some(v) => v
      case None => default
    }
  }
}

=== FILE: ordering.dfy ===
/**
 * `Enumerable.OrderBy` over item specs. The culture-sensitive comparer of the
 * framework is not modelled; the order is a parameter `le` ("sorts no later than"),
 * and the sort is a stable insertion sort.
 */
module Ordering {

  /** `le` is total and transitive: what a comparer must be for sorting to make sense. */
  ghost predicate IsTotalPreorder(le: (string, string) -> bool) {
    && (forall a, b :: le(a, b) || le(b, a))
    && (forall a, b, c :: le(a, b) && le(b, c) ==> le(a, c))
  }

  /** A total preorder in which only equal strings sort together. */
  ghost predicate IsTotalOrder(le: (string, string) -> bool) {
    && IsTotalPreorder(le)
    && (forall a, b :: le(a, b) && le(b, a) ==> a == b)
  }

  predicate SortedBy(s: seq<string>, le: (string, string) -> bool) {
    forall i, j :: 0 <= i < j < |s| ==> le(s[i], s[j])
  }

  /** Puts `x` in front of the first element it sorts no later than. */
  function InsertBy(x: string, s: seq<string>, le: (string, string) -> bool): (r: seq<string>)
    ensures multiset(r) == multiset(s) + multiset{x}
  {
    if |s| == 0 then [x]
    else if le(x, s[0]) then [x] + s
    else
      assert s == [s[0]] + s[1..];
      [s[0]] + InsertBy(x, s[1..], le)
  }

  /** The sorted permutation of `s`; elements that sort together keep their order. */
  function SortBy(s: seq<string>, le: (string, string) -> bool): (r: seq<string>)
    ensures multiset(r) == multiset(s)
  {
    if |s| == 0 then []
    else
      assert s == [s[0]] + s[1..];
      InsertBy(s[0], SortBy(s[1..], le), le)
  }

  lemma {:induction false} InsertBySorted(x: string, s: seq<string>, le: (string, string) -> bool)
    requires IsTotalPreorder(le) && SortedBy(s, le)
    ensures SortedBy(InsertBy(x, s, le), le)
    decreases |s|
  {
    if |s| == 0 {
    } else if le(x, s[0]) {
      var r := [x] + s;
      forall i, j | 0 <= i < j < |r| ensures le(r[i], r[j]) {
        if i == 0 && j > 1 {
          assert le(s[0], s[j - 1]);
        }
      }
    } else {
      var t := InsertBy(x, s[1..], le);
      InsertBySorted(x, s[1..], le);
      assert le(s[0], x);
      forall k | 0 <= k < |t| ensures le(s[0], t[k]) {
        assert t[k] in multiset(t);
        if t[k] != x {
          assert t[k] in multiset(s[1..]);
          var j :| 0 <= j < |s[1..]| && s[1..][j] == t[k];
          assert le(s[0], s[1 + j]);
        }
      }
      var r := [s[0]] + t;
      forall i, j | 0 <= i < j < |r| ensures le(r[i], r[j]) {
        if i > 0 {
          assert r[i] == t[i - 1] && r[j] == t[j - 1];
        } else {
          assert r[j] == t[j - 1];
        }
      }
    }
  }

  /** With a total preorder, `SortBy` returns a sorted sequence. */
  lemma {:induction false} SortBySorted(s: seq<string>, le: (string, string) -> bool)
    requires IsTotalPreorder(le)
    ensures SortedBy(SortBy(s, le), le)
  {
    if |s| > 0 {
      SortBySorted(s[1..], le);
      InsertBySorted(s[0], SortBy(s[1..], le), le);
    }
  }

  /** The head of a sorted sequence sorts no later than any of its elements. */
  lemma SortedHeadFirst(a: seq<string>, x: string, le: (string, string) -> bool)
    requires IsTotalPreorder(le) && SortedBy(a, le)
    requires x in multiset(a)
    ensures le(a[0], x)
  {
    var i :| 0 <= i < |a| && a[i] == x;
    if i > 0 {
      assert le(a[0], a[i]);
    }
  }

  lemma MultisetTail(a: seq<string>)
    requires |a| > 0
    ensures multiset(a[1..]) == multiset(a) - multiset{a[0]}
  {
    assert a == [a[0]] + a[1..];
  }

  /** Under a total order there is only one sorted arrangement of a multiset. */
  lemma {:induction false} SortedUnique(a: seq<string>, b: seq<string>, le: (string, string) -> bool)
    requires IsTotalOrder(le)
    requires SortedBy(a, le) && SortedBy(b, le)
    requires multiset(a) == multiset(b)
    ensures a == b
    decreases |a|
  {
    assert |a| == |multiset(a)| == |multiset(b)| == |b|;
    if |a| > 0 {
      assert a[0] in multiset(b) && b[0] in multiset(a);
      SortedHeadFirst(b, a[0], le);
      SortedHeadFirst(a, b[0], le);
      assert a[0] == b[0];
      MultisetTail(a);
      MultisetTail(b);
      SortedUnique(a[1..], b[1..], le);
      assert a == [a[0]] + a[1..] && b == [b[0]] + b[1..];
    }
  }
}

=== FILE: paths.dfy ===
/**
 * The part of `System.IO.Path` (.NET Framework) the add-in task uses, for
 * Windows-style paths: roots, directory and file-name parts, extensions,
 * `ChangeExtension` and `Combine`. Both `\` and `/` separate directories;
 * `Combine` inserts `\`, and `GetDirectoryName` spells its result with `\` only.
 * A drive (`C:`) or a leading separator is a root.
 */
module Paths {
  import opened Optional
  import opened Text

  const DirectorySeparatorChar: char := '\\'
  const Separators: set<char> := {'\\', '/'}
  const VolumeSeparatorChar: char := ':'
  /** The characters `Path.GetFileName` stops at: both separators and the volume separator. */
  const NameBoundaries: set<char> := {'\\', '/', ':'}
  const ExtensionMark: set<char> := {'.'}

  /** No character of `s` ends a directory or a volume part: `s` can only be a
      file name. */
  predicate IsPlainName(s: string) {
    forall i :: 0 <= i < |s| ==> s[i] !in NameBoundaries
  }

  /** A non-empty extension as `Path.GetExtension` returns it: a dot followed by
      at least one character that is neither a dot nor a name boundary. */
  predicate IsExtension(e: string) {
    && |e| >= 2
    && e[0] == '.'
    && forall i :: 1 <= i < |e| ==> e[i] != '.' && e[i] !in NameBoundaries
  }

  /** A relative path in canonical Windows form: no drive or volume separator, only
      `\` as separator, no leading separator and no doubled separator. */
  ghost predicate IsSimplePath(p: string) {
    && (forall i :: 0 <= i < |p| ==> p[i] != VolumeSeparatorChar && p[i] != '/')
    && (|p| > 0 ==> p[0] != DirectorySeparatorChar)
    && (forall i, j :: 0 <= i && j == i + 1 && j < |p| ==>
          !(p[i] == DirectorySeparatorChar && p[j] == DirectorySeparatorChar))
  }

  lemma PlainNameAppend(a: string, b: string)
    requires IsPlainName(a) && IsPlainName(b)
    ensures IsPlainName(a + b)
  {
    forall i | 0 <= i < |a + b| ensures (a + b)[i] !in NameBoundaries {
      if i >= |a| { assert (a + b)[i] == b[i - |a|]; }
    }
  }

  /** The length of the root of `p`, as .NET Framework's `GetRootLength` finds it
      for paths that are not UNC: a leading separator, or a volume (`C:`) with the
      separator that may follow it. */
  function RootLength(p: string): (r: nat)
    ensures r <= |p|
    ensures r <= 3
  {
    if |p| >= 1 && p[0] in Separators then 1
    else if |p| >= 2 && p[1] == VolumeSeparatorChar then
      (if |p| >= 3 && p[2] in Separators then 3 else 2)
    else 0
  }

  /** `s` with every `/` written as `\`: the separator rewrite `GetDirectoryName`
      applies before it cuts the path. */
  function WithBackslashes(s: string): string {
    seq(|s|, i requires 0 <= i < |s| => if s[i] == '/' then DirectorySeparatorChar else s[i])
  }

  /** No `/` occurs in `s`. */
  predicate HasNoSlash(s: string) {
    forall i :: 0 <= i < |s| ==> s[i] != '/'
  }

  /** The rewrite keeps the length, the root and every name boundary, leaves a
      string without `/` alone, and so is idempotent. */
  lemma WithBackslashesFacts(s: string)
    ensures |WithBackslashes(s)| == |s| && HasNoSlash(WithBackslashes(s))
    ensures forall i :: 0 <= i < |s| ==> (WithBackslashes(s)[i] in NameBoundaries <==> s[i] in NameBoundaries)
    ensures HasNoSlash(s) ==> WithBackslashes(s) == s
    ensures WithBackslashes(WithBackslashes(s)) == WithBackslashes(s)
    ensures RootLength(WithBackslashes(s)) == RootLength(s)
    ensures IsDirectoryPart(WithBackslashes(s)) <==> IsDirectoryPart(s)
  {
    var w := WithBackslashes(s);
    assert HasNoSlash(w);
    assert WithBackslashes(w) == w;
  }

  /** `Path.GetDirectoryName` with `?? string.Empty` applied: the path before its
      last separator, keeping the root whole and written with `\` only; empty for
      a path that is nothing but a root or a bare file name. */
  function DirectoryName(p: string): (r: string)
    ensures |r| < |p| || r == p == ""
    ensures r == WithBackslashes(p[..|r|])
    ensures HasNoSlash(r)
  {
    var root := RootLength(p);
    if |p| <= root then ""
    else
      WithBackslashes(
        match LastIndexOfAny(p, Separators)
        case Some(i) => if i >= root then p[..i] else p[..root]
        case None => p[..root])
  }

  /** `Path.GetFileName`: everything after the last separator or volume separator. */
  function FileName(p: string): (r: string)
    ensures |r| <= |p| && r == p[|p| - |r|..]
    ensures IsPlainName(r)
    ensures LastIndexOfAny(p, NameBoundaries).None? ==> r == p
  {
    match LastIndexOfAny(p, NameBoundaries)
    case Some(i) => p[i + 1..]
    case None => p
  }

  /** `Path.GetFileNameWithoutExtension`: the file name up to its last dot. */
  function FileNameWithoutExtension(p: string): (r: string)
    ensures r <= FileName(p)
    ensures IsPlainName(r)
  {
    var n := FileName(p);
    match LastIndexOfAny(n, ExtensionMark)
    case Some(i) => n[..i]
    case None => n
  }

  /** `Path.GetExtension`: the file name from its last dot on, or empty when the
      name has no dot or ends in one. */
  function Extension(p: string): (r: string)
    ensures r == "" || IsExtension(r)
  {
    var n := FileName(p);
    match LastIndexOfAny(n, ExtensionMark)
    case Some(i) => if i == |n| - 1 then "" else n[i..]
    case None => ""
  }

  /** A file name is its name without extension followed by its extension, with
      one dot lost when the name ends in a dot. */
  lemma ExtensionSplit(p: string)
    ensures Extension(p) != "" ==> FileName(p) == FileNameWithoutExtension(p) + Extension(p)
    ensures Extension(p) == "" ==>
              (FileName(p) == FileNameWithoutExtension(p) || FileName(p) == FileNameWithoutExtension(p) + ".")
  {
    var n := FileName(p);
    match LastIndexOfAny(n, ExtensionMark)
    case Some(i) =>
      if i == |n| - 1 {
        assert n == n[..i] + ".";
      } else {
        assert n == n[..i] + n[i..];
      }
    case None =>
  }

  /** `Path.ChangeExtension(p, ext)` for a non-null `ext`: the path without its
      extension, followed by `ext` (with a dot put in front when `ext` lacks one). */
  function ChangeExtension(p: string, ext: string): string {
    if |p| == 0 then ""
    else
      var n := FileName(p);
      p[..|p| - |n|] + FileNameWithoutExtension(p) + (if |ext| > 0 && ext[0] == '.' then ext else "." + ext)
  }

  /** `Path.IsPathRooted`: the path has a root. */
  predicate IsPathRooted(p: string) {
    RootLength(p) > 0
  }

  /** `Path.Combine(a, b)`. */
  function Combine(a: string, b: string): string {
    if |b| == 0 then a
    else if |a| == 0 then b
    else if IsPathRooted(b) then b
    else if a[|a| - 1] in Separators || a[|a| - 1] == VolumeSeparatorChar then a + b
    else a + [DirectorySeparatorChar] + b
  }

  /** A combined path ends like the name appended to it. */
  lemma CombineEndsLikeName(a: string, b: string)
    requires |b| > 0
    ensures var c := Combine(a, b);
            |c| > 0 && c[|c| - 1] == b[|b| - 1]
  {
  }

  /** `d` can stand as the directory part of a path: empty, a root on its own
      (`\`, `C:`, `C:\`), or ending in a character that is no name boundary. */
  predicate IsDirectoryPart(d: string) {
    |d| == RootLength(d) || d[|d| - 1] !in NameBoundaries
  }

  /** A directory part that is relative: empty, or unrooted and ending in a
      character that is no name boundary. */
  predicate IsRelativeDirectory(d: string) {
    |d| == 0 || (!IsPathRooted(d) && d[|d| - 1] !in NameBoundaries)
  }

  /** What `Combine` puts before a plain name: nothing, the directory itself when
      it already ends in a boundary, or the directory and a separator. */
  function CombinePrefix(d: string): string {
    if |d| == 0 then ""
    else if d[|d| - 1] in NameBoundaries then d
    else d + [DirectorySeparatorChar]
  }

  /** The prefix `Combine` puts before a name commutes with the `\` rewrite. */
  lemma CombinePrefixWithBackslashes(d: string)
    ensures CombinePrefix(WithBackslashes(d)) == WithBackslashes(CombinePrefix(d))
  {
    WithBackslashesFacts(d);
    if |d| > 0 && d[|d| - 1] !in NameBoundaries {
      assert WithBackslashes(d + [DirectorySeparatorChar]) == WithBackslashes(d) + [DirectorySeparatorChar];
    }
  }

  /** A plain name is combined with a directory by putting the directory's prefix
      before it. */
  lemma CombinePlainName(d: string, b: string)
    requires |b| > 0 && IsPlainName(b)
    ensures !IsPathRooted(b)
    ensures Combine(d, b) == CombinePrefix(d) + b
  {
    assert b[0] !in NameBoundaries;
    if |b| >= 2 { assert b[1] !in NameBoundaries; }
  }

  /** A path with an extension holds a dot. */
  lemma ExtensionHasDot(p: string)
    requires Extension(p) != ""
    ensures '.' in p
  {
    var n := FileName(p);
    match LastIndexOfAny(n, ExtensionMark)
    case Some(i) =>
      assert n[i] == '.';
      assert p[|p| - |n| + i] == n[i];
    case None =>
  }

  /** Combining with a non-empty name never gives the empty path. */
  lemma CombineNonEmpty(a: string, b: string)
    requires |b| > 0
    ensures |Combine(a, b)| > 0
  {
  }

  /** An extension holds no name boundary. */
  lemma ExtensionIsPlain(e: string)
    requires IsExtension(e)
    ensures IsPlainName(e)
  {
    assert e[0] !in NameBoundaries;
  }

  /** A directory combined with a plain stem and an extension yields a path with
      exactly that directory, stem and extension. */
  lemma CombineNameParts(d: string, stem: string, ext: string)
    requires IsDirectoryPart(d)
    requires IsPlainName(stem) && IsExtension(ext)
    ensures DirectoryName(Combine(d, stem + ext)) == WithBackslashes(d)
    ensures FileName(Combine(d, stem + ext)) == stem + ext
    ensures Extension(Combine(d, stem + ext)) == ext
    ensures FileNameWithoutExtension(Combine(d, stem + ext)) == stem
  {
    ExtensionIsPlain(ext);
    PlainNameAppend(stem, ext);
    DirectoryNameOfCombine(d, stem + ext);
    SplitFileName(stem, ext);
  }

  /** A plain name is a bare file name. */
  lemma PlainNameParts(p: string)
    requires IsPlainName(p)
    ensures DirectoryName(p) == "" && FileName(p) == p
  {
    if |p| >= 1 { assert p[0] !in NameBoundaries; }
    if |p| >= 2 { assert p[1] !in NameBoundaries; }
  }

  /** On a path without volume separator the last name boundary is the last
      separator. */
  lemma BoundaryIsSeparator(p: string)
    requires forall i :: 0 <= i < |p| ==> p[i] != VolumeSeparatorChar
    ensures LastIndexOfAny(p, NameBoundaries) == LastIndexOfAny(p, Separators)
  {
    match LastIndexOfAny(p, Separators)
    case Some(i) =>
      LastIndexOfAnyIs(p, NameBoundaries, i);
    case None =>
      assert forall j :: 0 <= j < |p| ==> p[j] !in NameBoundaries;
  }

  /** The directory part of a simple path is relative and has no root. */
  lemma SimplePathDirectory(p: string)
    requires IsSimplePath(p)
    ensures IsRelativeDirectory(DirectoryName(p))
    ensures IsDirectoryPart(DirectoryName(p))
  {
    if |p| >= 1 { assert p[0] !in Separators; }
    if |p| >= 2 { assert p[1] != VolumeSeparatorChar; }
    assert RootLength(p) == 0;
    var d := DirectoryName(p);
    match LastIndexOfAny(p, Separators)
    case None =>
    case Some(i) =>
      assert p[i] == DirectorySeparatorChar;
      assert i > 0;
      assert HasNoSlash(p[..i]);
      WithBackslashesFacts(p[..i]);
      assert d == p[..i];
      assert d[|d| - 1] == p[i - 1];
      assert d[0] == p[0];
      if |d| >= 2 { assert d[1] == p[1]; }
  }

  /** Splitting a simple path into its directory and its file name and combining
      the two again gives the path back. */
  lemma SplitCombine(p: string)
    requires IsSimplePath(p)
    requires FileName(p) != ""
    ensures Combine(DirectoryName(p), FileName(p)) == p
  {
    var n := FileName(p);
    BoundaryIsSeparator(p);
    SimplePathDirectory(p);
    CombinePlainName(DirectoryName(p), n);
    match LastIndexOfAny(p, Separators)
    case None =>
      PlainNameParts(n);
    case Some(i) =>
      assert p[i] == DirectorySeparatorChar;
      assert i > 0;
      assert HasNoSlash(p[..i]);
      WithBackslashesFacts(p[..i]);
      assert p == p[..i] + [DirectorySeparatorChar] + n;
  }

  /** Combining with a non-empty name keeps that name's file name. */
  lemma FileNameOfCombine(a: string, b: string)
    requires |b| > 0
    ensures FileName(Combine(a, b)) == FileName(b)
  {
    if |a| == 0 || IsPathRooted(b) {
    } else {
      var a' := if a[|a| - 1] in NameBoundaries then a else a + [DirectorySeparatorChar];
      assert Combine(a, b) == a' + b;
      assert a'[|a'| - 1] in NameBoundaries;
      FileNameOfAppend(a', b);
    }
  }

  lemma FileNameOfAppend(a: string, b: string)
    requires |a| > 0 && a[|a| - 1] in NameBoundaries
    ensures FileName(a + b) == FileName(b)
  {
    LastIndexOfAnyAppend(a, b, NameBoundaries);
    var ab := a + b;
    match LastIndexOfAny(b, NameBoundaries)
    case None =>
      LastIndexOfAnyIs(a, NameBoundaries, |a| - 1);
      assert LastIndexOfAny(ab, NameBoundaries) == Some(|a| - 1);
      assert FileName(ab) == ab[|a|..];
      assert ab[|a|..] == b;
      assert FileName(b) == b;
    case Some(k) =>
      assert LastIndexOfAny(ab, NameBoundaries) == Some(|a| + k);
      assert FileName(ab) == ab[|a| + k + 1..];
      assert ab[|a| + k + 1..] == b[k + 1..];
      assert FileName(b) == b[k + 1..];
  }

  /** A plain file name combined with a directory part lands in exactly that
      directory, root included, spelled with `\`. */
  lemma DirectoryNameOfCombine(a: string, b: string)
    requires |b| > 0 && IsPlainName(b)
    requires IsDirectoryPart(a)
    ensures DirectoryName(Combine(a, b)) == WithBackslashes(a)
    ensures FileName(Combine(a, b)) == b
  {
    CombinePlainName(a, b);
    FileNameOfCombine(a, b);
    PlainNameParts(b);
    if |a| == 0 {
      assert Combine(a, b) == b;
      assert WithBackslashes(a) == "";
    } else if |a| == RootLength(a) {
      assert a[|a| - 1] in NameBoundaries;
      assert Combine(a, b) == a + b;
      DirectoryNameAfterRoot(a, b);
    } else {
      assert Combine(a, b) == a + [DirectorySeparatorChar] + b;
      DirectoryNameAfterSeparator(a, b);
    }
  }

  /** A plain name right after a root lies in that root. */
  lemma DirectoryNameAfterRoot(a: string, b: string)
    requires |b| > 0 && IsPlainName(b)
    requires 0 < |a| == RootLength(a)
    ensures DirectoryName(a + b) == WithBackslashes(a)
  {
    var p := a + b;
    assert forall j :: 0 <= j < |b| ==> b[j] !in Separators;
    LastIndexOfAnyAppend(a, b, Separators);
    assert b[0] !in NameBoundaries;
    assert RootLength(p) == |a| by {
      assert p[0] == a[0];
      if |a| >= 2 { assert p[1] == a[1]; }
      if |a| >= 3 { assert p[2] == a[2]; }
      assert p[|a|] == b[0];
    }
    assert p[..|a|] == a;
  }

  /** A plain name after a directory and an inserted separator lies in that
      directory. */
  lemma DirectoryNameAfterSeparator(a: string, b: string)
    requires |b| > 0 && IsPlainName(b)
    requires |a| > 0 && a[|a| - 1] !in NameBoundaries
    ensures DirectoryName(a + [DirectorySeparatorChar] + b) == WithBackslashes(a)
  {
    var a' := a + [DirectorySeparatorChar];
    var p := a' + b;
    assert forall j :: 0 <= j < |b| ==> b[j] !in Separators;
    LastIndexOfAnyAppend(a', b, Separators);
    LastIndexOfAnyIs(a', Separators, |a|);
    assert RootLength(p) <= |a| by {
      assert p[0] == a[0];
      if |a| == 1 { assert p[1] == DirectorySeparatorChar; }
      if |a| >= 2 { assert p[1] == a[1]; }
    }
    assert p[..|a|] == a;
  }

  /** Two paths that differ only in a non-empty plain file name after the same
      directory part lie in the same directory. */
  lemma DirectoryNameOfSibling(d: string, m1: string, m2: string)
    requires |d| == 0 || d[|d| - 1] in NameBoundaries
    requires |m1| > 0 && IsPlainName(m1) && |m2| > 0 && IsPlainName(m2)
    ensures DirectoryName(d + m1) == DirectoryName(d + m2)
  {
    var p1 := d + m1;
    var p2 := d + m2;
    assert forall j :: 0 <= j < |m1| ==> m1[j] !in Separators;
    assert forall j :: 0 <= j < |m2| ==> m2[j] !in Separators;
    LastIndexOfAnyAppend(d, m1, Separators);
    LastIndexOfAnyAppend(d, m2, Separators);
    RootLengthAfterDirectoryPart(d, m1);
    RootLengthAfterDirectoryPart(d, m2);
    assert p1[..|d|] == d == p2[..|d|];
  }

  /** The root of a path made of a directory part and a plain name lies inside the
      directory part and does not depend on the name. */
  lemma RootLengthAfterDirectoryPart(d: string, m: string)
    requires |d| == 0 || d[|d| - 1] in NameBoundaries
    requires |m| > 0 && IsPlainName(m)
    ensures RootLength(d + m) == RootLength(d)
  {
    var p := d + m;
    assert p[|d|] == m[0];
    if |d| + 1 < |p| { assert p[|d| + 1] == m[1]; }
    if |d| >= 1 { assert p[0] == d[0]; }
    if |d| >= 2 { assert p[1] == d[1]; }
    if |d| >= 3 { assert p[2] == d[2]; }
  }

  /** `ChangeExtension` keeps the directory of a path whose file name is not
      empty. */
  lemma DirectoryNameOfChangeExtension(p: string, ext: string)
    requires |p| > 0 && p[|p| - 1] !in NameBoundaries
    requires IsExtension(ext)
    ensures DirectoryName(ChangeExtension(p, ext)) == DirectoryName(p)
  {
    var n := FileName(p);
    var d := p[..|p| - |n|];
    var m := FileNameWithoutExtension(p) + ext;
    DirectoryPartEndsInBoundary(p);
    ExtensionIsPlain(ext);
    PlainNameAppend(FileNameWithoutExtension(p), ext);
    assert p == d + n;
    assert ChangeExtension(p, ext) == d + m;
    DirectoryNameOfSibling(d, n, m);
  }

  /** A stem followed by an extension splits back into the two. */
  lemma SplitFileName(stem: string, ext: string)
    requires IsPlainName(stem) && IsExtension(ext)
    ensures FileName(stem + ext) == stem + ext
    ensures Extension(stem + ext) == ext
    ensures FileNameWithoutExtension(stem + ext) == stem
  {
    var n := stem + ext;
    ExtensionIsPlain(ext);
    PlainNameAppend(stem, ext);
    PlainNameParts(n);
    LastIndexOfAnyAppend(stem, ext, ExtensionMark);
    LastIndexOfAnyIs(ext, ExtensionMark, 0);
    assert n[..|stem|] == stem;
    assert n[|stem|..] == ext;
  }

  lemma ChangeExtensionName(p: string, ext: string)
    requires |p| > 0 && IsExtension(ext)
    ensures FileName(ChangeExtension(p, ext)) == FileNameWithoutExtension(p) + ext
  {
    var n := FileName(p);
    var d := p[..|p| - |n|];
    var stem := FileNameWithoutExtension(p);
    var m := stem + ext;
    assert ChangeExtension(p, ext) == d + m;
    ExtensionIsPlain(ext);
    PlainNameAppend(stem, ext);
    PlainNameParts(m);
    if |d| > 0 {
      DirectoryPartEndsInBoundary(p);
      FileNameOfAppend(d, m);
    }
  }

  /** Changing the extension of a path without directory part. */
  lemma ChangeExtensionOfFileName(p: string, ext: string)
    requires |p| > 0 && FileName(p) == p && IsExtension(ext)
    ensures ChangeExtension(p, ext) == FileNameWithoutExtension(p) + ext
  {
    assert p[..|p| - |FileName(p)|] == [];
  }

  /** What precedes the file name of a path, when anything does, ends in a name
      boundary. */
  lemma DirectoryPartEndsInBoundary(p: string)
    ensures var n := FileName(p);
            |n| < |p| ==> p[|p| - |n| - 1] in NameBoundaries
  {
    match LastIndexOfAny(p, NameBoundaries)
    case Some(i) =>
      assert FileName(p) == p[i + 1..];
    case None =>
  }

  /** Changing the extension to one with a dot replaces the file name's extension
      and nothing else. */
  lemma ChangeExtensionFileName(p: string, ext: string)
    requires |p| > 0 && IsExtension(ext)
    ensures FileName(ChangeExtension(p, ext)) == FileNameWithoutExtension(p) + ext
    ensures Extension(ChangeExtension(p, ext)) == ext
    ensures FileNameWithoutExtension(ChangeExtension(p, ext)) == FileNameWithoutExtension(p)
  {
    var q := ChangeExtension(p, ext);
    var stem := FileNameWithoutExtension(p);
    ChangeExtensionName(p, ext);
    SplitFileName(stem, ext);
    assert FileName(stem + ext) == FileName(q);
    assert Extension(q) == Extension(stem + ext);
    assert FileNameWithoutExtension(q) == FileNameWithoutExtension(stem + ext);
  }

  /** Changing the extension of a name combined with a directory changes the
      extension of the name and keeps the directory. */
  lemma ChangeExtensionOfCombine(d: string, stem: string, ext: string, newExt: string)
    requires IsPlainName(stem) && IsExtension(ext) && IsExtension(newExt)
    ensures ChangeExtension(Combine(d, stem + ext), newExt) == Combine(d, stem + newExt)
  {
    ExtensionIsPlain(ext);
    ExtensionIsPlain(newExt);
    PlainNameAppend(stem, ext);
    PlainNameAppend(stem, newExt);
    CombinePlainName(d, stem + ext);
    CombinePlainName(d, stem + newExt);
    var p := Combine(d, stem + ext);
    FileNameOfCombine(d, stem + ext);
    SplitFileName(stem, ext);
    assert FileName(p) == stem + ext;
    assert FileNameWithoutExtension(p) == stem;
    assert p[..|p| - |stem + ext|] == CombinePrefix(d);
  }

  /** Combining a directory, a relative directory and a plain name in either
      grouping gives the same path, and the outer pair is again a directory part. */
  lemma CombineAssociates(a: string, d: string, b: string)
    requires IsDirectoryPart(a) && IsRelativeDirectory(d)
    requires |b| > 0 && IsPlainName(b)
    ensures Combine(a, Combine(d, b)) == Combine(Combine(a, d), b)
    ensures IsDirectoryPart(Combine(a, d))
  {
    CombinePlainName(d, b);
    if |d| > 0 {
      var db := d + [DirectorySeparatorChar] + b;
      assert Combine(d, b) == db;
      assert !IsPathRooted(db) by {
        assert db[0] == d[0];
        if |d| >= 2 { assert db[1] == d[1]; } else { assert db[1] == DirectorySeparatorChar; }
      }
      var ad := Combine(a, d);
      assert ad == CombinePrefix(a) + d;
      assert ad[|ad| - 1] == d[|d| - 1];
      CombinePlainName(ad, b);
      assert Combine(a, db) == CombinePrefix(a) + db;
    } else {
      CombinePlainName(a, b);
    }
  }

  /** Appending to a non-empty extension-changed path is the same as changing to
      the longer extension. */
  lemma ChangeExtensionAppend(p: string, ext: string, more: string)
    requires |p| > 0 && |ext| > 0 && ext[0] == '.'
    ensures ChangeExtension(p, ext + more) == ChangeExtension(p, ext) + more
  {
  }
}

=== FILE: scenarios.dfy ===
/**
 * Worked scenarios: how a descriptor name derives, which descriptors are emitted,
 * and where derivation surprises. Each scenario is stated for every base name and
 * suffix pair meeting its conditions; for instance `Book.dna` with the suffixes
 * `32` and `64`. The scenarios are about bare file names, except
 * `GenericNameInDirectory` and `SlashSpelledDirectoryDoesNotCollide`, which hold
 * in any directory that is empty, a root, or ends in neither a separator nor `:`.
 */
module Scenarios {
  import opened Optional
  import opened Text
  import opened Paths
  import opened AddInSettings
  import opened BitnessNaming
  import opened BuildItems

  /** `marker` occurs nowhere in `s`, ignoring case. */
  predicate FreeOf(s: string, marker: string) {
    forall i :: 0 <= i <= |s| ==> !OccursAt(s, marker, i)
  }

  /** The settings carry the two non-blank bitness suffixes `m32` and `m64`. */
  predicate HasSuffixes(s: Settings, m32: string, m64: string) {
    && s.fileSuffix32Bit == Some(m32) && s.fileSuffix64Bit == Some(m64)
    && !IsNullOrWhiteSpace(Some(m32)) && !IsNullOrWhiteSpace(Some(m64))
  }

  /** A bare name splits into its stem and its extension. */
  lemma BareNameParts(stem: string, ext: string)
    requires IsPlainName(stem) && IsExtension(ext)
    ensures DirectoryName(stem + ext) == "" && FileName(stem + ext) == stem + ext
    ensures FileNameWithoutExtension(stem + ext) == stem
    ensures Extension(stem + ext) == ext
  {
    SplitFileName(stem, ext);
    PlainNameAppend(stem, ext);
    PlainNameParts(stem + ext);
  }

  lemma PlainNamePrefix(a: string, b: string)
    requires IsPlainName(a + b)
    ensures IsPlainName(a)
  {
    forall i | 0 <= i < |a| ensures a[i] !in NameBoundaries {
      assert a[i] == (a + b)[i];
    }
  }

  /** Derivation of a bare name whose generic stem is known. */
  lemma DeriveBareName(stem: string, ext: string, suffix: string,
                       suffix32: Option<string>, suffix64: Option<string>, generic: string)
    requires IsPlainName(stem) && IsExtension(ext)
    requires GenericStem(stem, suffix32, suffix64) == generic
    ensures FileNameWithBitnessSuffix(stem + ext, Some(suffix), suffix32, suffix64) == generic + suffix + ext
  {
    BareNameParts(stem, ext);
  }

  /** A base name holding neither suffix gets the target suffix appended:
      `Book.dna` becomes `Book32.dna` and `Book64.dna`. */
  lemma GenericNameGetsSuffix(base: string, ext: string, suffix: string, m32: string, m64: string)
    requires IsPlainName(base) && IsExtension(ext)
    requires FreeOf(base, m32) && FreeOf(base, m64)
    ensures FileNameWithBitnessSuffix(base + ext, Some(suffix), Some(m32), Some(m64)) == base + suffix + ext
  {
    DeriveBareName(base, ext, suffix, Some(m32), Some(m64), base);
  }

  /** The derivation keeps the directory, root included, and spells it with `\`:
      `C:\Book.dna` becomes `C:\Book32.dna`, `\Book.dna` becomes `\Book32.dna`,
      and `a/b/Book.dna` becomes `a\b\Book32.dna`. */
  lemma GenericNameInDirectory(d: string, base: string, ext: string, suffix: string, m32: string, m64: string)
    requires IsDirectoryPart(d)
    requires IsPlainName(base) && IsExtension(ext)
    requires FreeOf(base, m32) && FreeOf(base, m64)
    ensures FileNameWithBitnessSuffix(Combine(d, base + ext), Some(suffix), Some(m32), Some(m64))
            == Combine(WithBackslashes(d), base + suffix + ext)
  {
    CombineNameParts(d, base, ext);
  }

  /** A name carrying the 32-bit suffix derives like its base name: `Book32.dna` is
      its own 32-bit name, and its 64-bit name is `Book64.dna`. */
  lemma ExplicitNameDerivation(base: string, ext: string, suffix: string, m32: string, m64: string)
    requires |base| > 0 && IsPlainName(base + m32) && IsExtension(ext)
    requires !IsNullOrWhiteSpace(Some(m32)) && FreeOf(base, m64)
    ensures FileNameWithBitnessSuffix(base + m32 + ext, Some(suffix), Some(m32), Some(m64)) == base + suffix + ext
  {
    StripOwnSuffix(base, m32);
    DeriveBareName(base + m32, ext, suffix, Some(m32), Some(m64), base);
  }

  /** A suffix found only at the start of the stem is part of the name and is kept:
      with `Foo` as the 32-bit suffix, `Foo.dna` becomes `FooFoo.dna`. */
  lemma SuffixAtStartIsKept(m32: string, m64: string, ext: string)
    requires IsPlainName(m32) && IsExtension(ext) && FreeOf(m32, m64)
    ensures FileNameWithBitnessSuffix(m32 + ext, Some(m32), Some(m32), Some(m64)) == m32 + m32 + ext
  {
    assert !Strippable(m32, Some(m32));
    DeriveBareName(m32, ext, m32, Some(m32), Some(m64), m32);
  }

  /** The character `c` occurs nowhere in `s`, ignoring case. */
  predicate Lacks(s: string, c: char) {
    forall i :: 0 <= i < |s| ==> FoldChar(s[i]) != c
  }

  /** No decimal digit occurs in `s`. */
  predicate HasNoDigit(s: string) {
    forall i :: 0 <= i < |s| ==> !('0' <= s[i] <= '9')
  }

  lemma NoDigitLacks(s: string, c: char)
    requires HasNoDigit(s) && '0' <= c <= '9'
    ensures Lacks(s, c)
  {
  }

  lemma LacksAppend(a: string, b: string, c: char)
    requires Lacks(a, c) && Lacks(b, c)
    ensures Lacks(a + b, c)
  {
    forall i | 0 <= i < |a + b| ensures FoldChar((a + b)[i]) != c {
      if i >= |a| { assert (a + b)[i] == b[i - |a|]; }
    }
  }

  /** In `a + "64" + b` with `b` free of digits, the last `64` is the one after
      `a`, so stripping it leaves `a`. */
  lemma StripMiddle64(a: string, b: string)
    requires |a| > 0 && HasNoDigit(b)
    ensures StripMarker(a + "64" + b, Some("64")) == a
  {
    var z := a + "64" + b;
    assert "64"[0] !in WhiteSpace;
    assert z[|a|..|a| + 2] == "64";
    assert OccursAt(z, "64", |a|);
    forall j | |a| < j ensures !OccursAt(z, "64", j) {
      if j + 2 <= |z| {
        assert z[j..j + 2][0] == z[j];
        assert Fold(z[j..j + 2])[0] == FoldChar(z[j]);
        if j == |a| + 1 {
          assert z[j] == '4';
        } else {
          assert z[j] == b[j - |a| - 2];
        }
        assert FoldChar(z[j]) != '6';
      }
    }
    var r := StripMarker(z, Some("64"));
    assert |r| == |a|;
    assert z[..|a|] == a;
  }

  /** `a + "64" + b + "64"` holds no `32`. */
  lemma No32In(a: string, b: string)
    requires HasNoDigit(a) && HasNoDigit(b)
    ensures StripMarker(a + "64" + b + "64", Some("32")) == a + "64" + b + "64"
  {
    NoDigitLacks(a, '3');
    NoDigitLacks(b, '3');
    assert Lacks("64", '3');
    LacksAppend(a, "64", '3');
    LacksAppend(a + "64", b, '3');
    LacksAppend(a + "64" + b, "64", '3');
    AbsentCharNoOccurrence(a + "64" + b + "64", "32", 0);
  }

  /** Deriving twice is not deriving once: stripping cuts the stem at the last match
      and drops what follows it. `A64B64.dna` derives to `A64B32.dna`, whose own
      32-bit name is `A32.dna`. */
  lemma DerivationIsNotIdempotent(a: string, b: string)
    requires |a| > 0 && HasNoDigit(a) && HasNoDigit(b)
    requires IsPlainName(a) && IsPlainName(b)
    ensures FileNameWithBitnessSuffix(a + "64" + b + "64" + ".dna", Some("32"), Some("32"), Some("64"))
            == a + "64" + b + "32" + ".dna"
    ensures FileNameWithBitnessSuffix(a + "64" + b + "32" + ".dna", Some("32"), Some("32"), Some("64"))
            == a + "32" + ".dna"
  {
    assert "32"[0] !in WhiteSpace && "64"[0] !in WhiteSpace;
    assert IsExtension(".dna");
    assert IsPlainName("64") && IsPlainName("32");
    PlainNameAppend(a, "64");
    PlainNameAppend(a + "64", b);
    PlainNameAppend(a + "64" + b, "64");
    PlainNameAppend(a + "64" + b, "32");
    var mid := a + "64" + b;
    No32In(a, b);
    StripOwnSuffix(mid, "64");
    DeriveBareName(mid + "64", ".dna", "32", Some("32"), Some("64"), mid);
    StripOwnSuffix(mid, "32");
    StripMiddle64(a, b);
    DeriveBareName(mid + "32", ".dna", "32", Some("32"), Some("64"), a);
  }

  /** Changing the extension of a bare name. */
  lemma BareChangeExtension(stem: string, ext: string, newExt: string)
    requires IsPlainName(stem) && IsExtension(ext) && IsExtension(newExt)
    ensures ChangeExtension(stem + ext, newExt) == stem + newExt
  {
    BareNameParts(stem, ext);
    ChangeExtensionOfFileName(stem + ext, newExt);
  }

  /** Names that differ only in a middle part differ, ignoring case, when the middle
      parts do. */
  lemma MiddleDiffers(p: string, x: string, y: string, q: string)
    requires !EqualsIgnoreCase(x, y)
    ensures !EqualsIgnoreCase(p + x + q, p + y + q)
  {
    if |x| == |y| {
      FoldAppend(p, x);
      FoldAppend(p + x, q);
      FoldAppend(p, y);
      FoldAppend(p + y, q);
      assert Fold(p + x + q)[|p|..|p| + |x|] == Fold(x);
      assert Fold(p + y + q)[|p|..|p| + |y|] == Fold(y);
    } else {
      assert |Fold(p + x + q)| != |Fold(p + y + q)|;
    }
  }

  /** Emission in a project of two descriptors, in terms of their names. */
  lemma TwoDescriptorEmission(x: BuildItemSpec, y: BuildItemSpec, b: Bitness)
    ensures var d := x.Variant(b).inputDnaFileName;
            ShouldCopyDnaOutput(x, [x, y], b)
            <==> x.inputDnaFileName == d
                 || (!EqualsIgnoreCase(d, x.inputDnaFileName) && !EqualsIgnoreCase(d, y.inputDnaFileName))
    ensures var d := y.Variant(b).inputDnaFileName;
            ShouldCopyDnaOutput(y, [x, y], b)
            <==> y.inputDnaFileName == d
                 || (!EqualsIgnoreCase(d, x.inputDnaFileName) && !EqualsIgnoreCase(d, y.inputDnaFileName))
  {
    assert x in [x, y] && y in [x, y];
  }

  /** Emission of the only descriptor of a project. */
  lemma LoneDescriptorEmission(x: BuildItemSpec, b: Bitness)
    ensures var d := x.Variant(b).inputDnaFileName;
            ShouldCopyDnaOutput(x, [x], b) <==> x.inputDnaFileName == d || !EqualsIgnoreCase(d, x.inputDnaFileName)
  {
    assert x in [x];
  }

  /** A descriptor alone in the project is emitted for both bitnesses: `Book.dna`
      is staged as `Book32.dna` with loader `Book32.xll` and as `Book64.dna` with
      loader `Book64.xll`, in the output directory. */
  lemma LoneDescriptorIsEmittedTwice(s: Settings, base: string, ext: string, m32: string, m64: string)
    requires HasSuffixes(s, m32, m64)
    requires IsPlainName(base + m32) && IsPlainName(base + m64) && IsExtension(ext)
    requires FreeOf(base, m32) && FreeOf(base, m64)
    ensures var x := BuildItemFor(s, base + ext);
            && ShouldCopyDnaOutput(x, [x], Bit32)
            && ShouldCopyDnaOutput(x, [x], Bit64)
            && x.as32Bit.outputDnaFileName == Combine(s.outDirectory, base + m32 + ext)
            && x.as32Bit.outputXllFileName == Combine(s.outDirectory, base + m32 + XllExtension)
            && x.as64Bit.outputDnaFileName == Combine(s.outDirectory, base + m64 + ext)
            && x.as64Bit.outputXllFileName == Combine(s.outDirectory, base + m64 + XllExtension)
  {
    var x := BuildItemFor(s, base + ext);
    PlainNamePrefix(base, m32);
    GenericNameGetsSuffix(base, ext, m32, m32, m64);
    GenericNameGetsSuffix(base, ext, m64, m32, m64);
    assert x.Variant(Bit32).inputDnaFileName == base + m32 + ext;
    assert x.Variant(Bit64).inputDnaFileName == base + m64 + ext;
    assert |base + m32 + ext| != |base + ext| && |base + m64 + ext| != |base + ext|;
    EqualsIgnoreCaseProperties(base + m32 + ext, base + ext, base + ext);
    EqualsIgnoreCaseProperties(base + m64 + ext, base + ext, base + ext);
    LoneDescriptorEmission(x, Bit32);
    LoneDescriptorEmission(x, Bit64);
    ExtensionConstants();
    BareChangeExtension(base + m32, ext, XllExtension);
    BareChangeExtension(base + m64, ext, XllExtension);
  }

  /** With `Book.dna` and `Book32.dna` in the project, the generic descriptor gives
      way to the explicit one for 32-bit, and the explicit one is emitted for 32-bit.
      For 64-bit both are emitted, both as `Book64.dna`: the later copy overwrites
      the earlier one, and the name is recorded twice for packing. */
  lemma ExplicitVariantTakesPrecedence(s: Settings, base: string, ext: string, m32: string, m64: string)
    requires HasSuffixes(s, m32, m64) && !EqualsIgnoreCase(m32, m64)
    requires |base| > 0 && IsPlainName(base + m32) && IsExtension(ext)
    requires FreeOf(base, m32) && FreeOf(base, m64)
    ensures var generic := BuildItemFor(s, base + ext);
            var explicit := BuildItemFor(s, base + m32 + ext);
            var items := [generic, explicit];
            && !ShouldCopyDnaOutput(generic, items, Bit32)
            && ShouldCopyDnaOutput(explicit, items, Bit32)
            && ShouldCopyDnaOutput(generic, items, Bit64)
            && ShouldCopyDnaOutput(explicit, items, Bit64)
            && generic.as64Bit.outputDnaFileName == explicit.as64Bit.outputDnaFileName
  {
    var generic := BuildItemFor(s, base + ext);
    var explicit := BuildItemFor(s, base + m32 + ext);
    PlainNamePrefix(base, m32);
    GenericNameGetsSuffix(base, ext, m32, m32, m64);
    GenericNameGetsSuffix(base, ext, m64, m32, m64);
    ExplicitNameDerivation(base, ext, m32, m32, m64);
    ExplicitNameDerivation(base, ext, m64, m32, m64);
    var n32, n64 := base + m32 + ext, base + m64 + ext;
    assert generic.Variant(Bit32).inputDnaFileName == n32;
    assert explicit.Variant(Bit32).inputDnaFileName == n32;
    assert generic.Variant(Bit64).inputDnaFileName == n64;
    assert explicit.Variant(Bit64).inputDnaFileName == n64;
    assert EqualsIgnoreCase(n32, explicit.inputDnaFileName);
    assert |n64| != |base + ext|;
    EqualsIgnoreCaseProperties(n64, base + ext, base + ext);
    MiddleDiffers(base, m64, m32, ext);
    TwoDescriptorEmission(generic, explicit, Bit32);
    TwoDescriptorEmission(generic, explicit, Bit64);
  }

  /** A `/` survives case folding, so a name differs ignoring case from its `\`
      spelling. */
  lemma BackslashSpellingDiffers(x: string, n: string)
    requires !HasNoSlash(x)
    ensures !EqualsIgnoreCase(WithBackslashes(x) + n, x + n)
  {
    var k :| 0 <= k < |x| && x[k] == '/';
    WithBackslashesFacts(x);
    assert (WithBackslashes(x) + n)[k] == DirectorySeparatorChar;
    assert (x + n)[k] == '/';
    assert Fold(WithBackslashes(x) + n)[k] != Fold(x + n)[k];
  }

  /** With a directory spelled with `/`, such as `C:/` or `a/b`, the generic
      descriptor's 32-bit name is spelled with `\` (`C:/Book.dna` derives to
      `C:\Book32.dna`), so it matches neither `C:/Book.dna` nor `C:/Book32.dna`
      ignoring case, and the generic descriptor is emitted for 32-bit. */
  lemma SlashSpelledDirectoryDoesNotCollide(s: Settings, d: string, base: string, ext: string,
                                            m32: string, m64: string)
    requires IsDirectoryPart(d) && !HasNoSlash(d)
    requires HasSuffixes(s, m32, m64)
    requires IsPlainName(base + m32) && IsExtension(ext)
    requires FreeOf(base, m32) && FreeOf(base, m64)
    ensures var generic := BuildItemFor(s, Combine(d, base + ext));
            var explicit := BuildItemFor(s, Combine(d, base + m32 + ext));
            && generic.as32Bit.inputDnaFileName == Combine(WithBackslashes(d), base + m32 + ext)
            && ShouldCopyDnaOutput(generic, [generic, explicit], Bit32)
  {
    PlainNamePrefix(base, m32);
    GenericNameInDirectory(d, base, ext, m32, m32, m64);
    var n := base + m32 + ext;
    ExtensionIsPlain(ext);
    PlainNameAppend(base + m32, ext);
    PlainNameAppend(base, ext);
    CombinePlainName(d, n);
    CombinePlainName(WithBackslashes(d), n);
    CombinePlainName(d, base + ext);
    CombinePrefixWithBackslashes(d);
    var pre := CombinePrefix(d);
    assert !HasNoSlash(pre) by {
      var k :| 0 <= k < |d| && d[k] == '/';
      assert pre[k] == d[k];
    }
    BackslashSpellingDiffers(pre, n);
    WithBackslashesFacts(pre);
    var generic := BuildItemFor(s, Combine(d, base + ext));
    var explicit := BuildItemFor(s, Combine(d, base + m32 + ext));
    var derived := WithBackslashes(pre) + n;
    assert generic.Variant(Bit32).inputDnaFileName == derived;
    assert |derived| != |generic.inputDnaFileName| by { assert |m32| > 0; }
    EqualsIgnoreCaseProperties(derived, generic.inputDnaFileName, generic.inputDnaFileName);
    TwoDescriptorEmission(generic, explicit, Bit32);
  }

  /** Stripping a marker from a stem that ends in a case variant of it recovers the
      stem. */
  lemma StripCaseVariantSuffix(base: string, variant: string, marker: string)
    requires |base| > 0 && !IsNullOrWhiteSpace(Some(marker)) && EqualsIgnoreCase(variant, marker)
    ensures StripMarker(base + variant, Some(marker)) == base
  {
    EqualsIgnoreCaseProperties(variant, marker, marker);
    var z := base + variant;
    assert z[|base|..|base| + |marker|] == variant;
    assert OccursAt(z, marker, |base|);
    assert z[..|base|] == base;
  }

  /** With suffix `x32`, `BookX32.dna` derives to `Bookx32.dna`: a different name
      only in letter case, so the descriptor collides with itself and is skipped. */
  lemma CaseOnlyDifferenceIsSkipped(s: Settings, base: string, variant: string, ext: string, m32: string, m64: string)
    requires HasSuffixes(s, m32, m64) && variant != m32 && EqualsIgnoreCase(variant, m32)
    requires |base| > 0 && IsPlainName(base + variant) && IsExtension(ext) && FreeOf(base, m64)
    ensures var x := BuildItemFor(s, base + variant + ext);
            && x.as32Bit.inputDnaFileName == base + m32 + ext
            && x.inputDnaFileName != x.as32Bit.inputDnaFileName
            && !ShouldCopyDnaOutput(x, [x], Bit32)
  {
    StripCaseVariantSuffix(base, variant, m32);
    DeriveBareName(base + variant, ext, m32, Some(m32), Some(m64), base);
    CaseVariantNames(base, variant, m32, ext);
    var x := BuildItemFor(s, base + variant + ext);
    assert x.Variant(Bit32).inputDnaFileName == base + m32 + ext;
    CaseVariantOfOwnNameIsSkipped(x, [x], Bit32);
  }

  /** Replacing a middle part by a case variant gives a different name that is
      equal ignoring case. */
  lemma CaseVariantNames(base: string, variant: string, marker: string, ext: string)
    requires variant != marker && EqualsIgnoreCase(variant, marker)
    ensures base + variant + ext != base + marker + ext
    ensures EqualsIgnoreCase(base + variant + ext, base + marker + ext)
  {
    var name, derived := base + variant + ext, base + marker + ext;
    EqualsIgnoreCaseProperties(variant, marker, marker);
    var k :| 0 <= k < |variant| && variant[k] != marker[k];
    assert name[|base| + k] == variant[k] && derived[|base| + k] == marker[k];
    FoldAppend(base, variant);
    FoldAppend(base + variant, ext);
    FoldAppend(base, marker);
    FoldAppend(base + marker, ext);
  }

  /** Two names that differ at some position after folding are different, ignoring
      case. */
  lemma FoldedCharsDiffer(a: string, b: string, i: nat)
    requires i < |a| && i < |b| && FoldChar(a[i]) != FoldChar(b[i])
    ensures !EqualsIgnoreCase(a, b)
  {
    assert Fold(a)[i] != Fold(b)[i];
  }

  /** The fallback configuration file is `App.config` derived like a descriptor:
      `App32.config` and `App64.config` when `App` holds neither suffix. */
  lemma FallbackConfigName(s: Settings, m32: string, m64: string)
    requires HasSuffixes(s, m32, m64)
    requires FreeOf("App", m32) && FreeOf("App", m64)
    ensures AppConfigFileNameAs(s, Bit32) == "App" + m32 + ConfigExtension
    ensures AppConfigFileNameAs(s, Bit64) == "App" + m64 + ConfigExtension
  {
    ExtensionConstants();
    assert AppConfigFileName == "App" + ConfigExtension;
    assert IsPlainName("App");
    GenericNameGetsSuffix("App", ConfigExtension, m32, m32, m64);
    GenericNameGetsSuffix("App", ConfigExtension, m64, m32, m64);
  }

  /** The configuration chain prefers the descriptor's own file over the fallback
      `App32.config` and the project's `App.config`. */
  lemma OwnConfigFirst()
    ensures TryFindAppConfigFileName("Book32.config", "App32.config",
                                     ["App.config", "App32.config", "Book32.config"]) == Some("Book32.config")
  {
    var configs := ["App.config", "App32.config", "Book32.config"];
    assert configs[2] in configs;
  }

  /** Without the descriptor's own file, the fallback `App32.config` comes next. */
  lemma FallbackConfigSecond()
    ensures TryFindAppConfigFileName("Book32.config", "App32.config",
                                     ["App.config", "App32.config"]) == Some("App32.config")
  {
    var configs := ["App.config", "App32.config"];
    assert |Fold("Book32.config")| != |Fold("App.config")|;
    FoldedCharsDiffer("Book32.config", "App32.config", 0);
    assert !ContainsIgnoreCase(configs, "Book32.config");
    assert configs[1] in configs;
  }

  /** Last comes `App.config` in the project's own spelling, and otherwise there is
      no configuration file. */
  lemma ProjectConfigLast()
    ensures TryFindAppConfigFileName("Book32.config", "App32.config", ["app.config"]) == Some("app.config")
    ensures TryFindAppConfigFileName("Book32.config", "App32.config", ["Other.config"]) == None
  {
    assert |Fold("Book32.config")| != |Fold("app.config")|;
    assert |Fold("App32.config")| != |Fold("app.config")|;
    assert !ContainsIgnoreCase(["app.config"], "Book32.config");
    assert !ContainsIgnoreCase(["app.config"], "App32.config");
    assert Fold("app.config") == Fold(AppConfigFileName);
    assert |Fold("Book32.config")| != |Fold("Other.config")|;
    FoldedCharsDiffer("Other.config", "App32.config", 0);
    FoldedCharsDiffer("Other.config", AppConfigFileName, 0);
    assert !ContainsIgnoreCase(["Other.config"], "Book32.config");
    assert !ContainsIgnoreCase(["Other.config"], "App32.config");
    assert !ContainsIgnoreCase(["Other.config"], AppConfigFileName);
  }
}

=== FILE: settings.dfy ===
/**
 * The parameters of the CreateExcelAddIn build task and the sanity checks it runs
 * on them before touching any file.
 */
module AddInSettings {
  import opened Optional
  import opened Text

  datatype Bitness = Bit32 | Bit64

  /** The build task's input properties. Strings the build may leave unset are `Option`s. */
  datatype Settings = Settings(
    outDirectory: string,
    xll32FilePath: string,
    xll64FilePath: string,
    create32BitAddIn: bool,
    create64BitAddIn: bool,
    fileSuffix32Bit: Option<string>,
    fileSuffix64Bit: Option<string>,
    packIsEnabled: bool,
    packedFileSuffix: Option<string>)
  {
    /** The name suffix of add-ins of bitness `b`. */
    function FileSuffix(b: Bitness): Option<string> {
      match b
      case Bit32 => fileSuffix32Bit
      case Bit64 => fileSuffix64Bit
    }

    /** The Excel-DNA loader (`.xll`) copied next to add-ins of bitness `b`. */
    function XllFilePath(b: Bitness): string {
      match b
      case Bit32 => xll32FilePath
      case Bit64 => xll64FilePath
    }

    /** Whether add-ins of bitness `b` are built at all. */
    predicate CreateAddIn(b: Bitness) {
      match b
      case Bit32 => create32BitAddIn
      case Bit64 => create64BitAddIn
    }
  }

  /** Why a run stops before doing anything. */
  datatype SanityError = Xll32FileMissing | Xll64FileMissing | IdenticalSuffixes

  /** `string.Equals(a, b, StringComparison.OrdinalIgnoreCase)` on strings that may
      be null: two nulls are equal, and null equals no string. */
  predicate NullableEqualsIgnoreCase(a: Option<string>, b: Option<string>) {
    match (a, b)
    case (None, None) => true
    case (Some(x), Some(y)) => EqualsIgnoreCase(x, y)
    case _ => false
  }

  /** The checks run before anything else, in order; `existingFiles` are the paths
      the file system reports as existing. The first failing check is reported. */
  function RunSanityChecks(s: Settings, existingFiles: set<string>): (r: Option<SanityError>)
    ensures r.None? <==> && s.xll32FilePath in existingFiles
                         && s.xll64FilePath in existingFiles
                         && !NullableEqualsIgnoreCase(s.fileSuffix32Bit, s.fileSuffix64Bit)
    ensures r == Some(Xll32FileMissing) <==> s.xll32FilePath !in existingFiles
    ensures r == Some(IdenticalSuffixes) ==> s.xll32FilePath in existingFiles && s.xll64FilePath in existingFiles
  {
    if s.xll32FilePath !in existingFiles then Some(Xll32FileMissing)
    else if s.xll64FilePath !in existingFiles then Some(Xll64FileMissing)
    else if NullableEqualsIgnoreCase(s.fileSuffix32Bit, s.fileSuffix64Bit) then Some(IdenticalSuffixes)
    else None
  }

  /** Two unset suffixes count as identical, so a run needs at least one suffix set. */
  lemma BothSuffixesUnsetFails(s: Settings, existingFiles: set<string>)
    requires s.fileSuffix32Bit.None? && s.fileSuffix64Bit.None?
    ensures RunSanityChecks(s, existingFiles).Some?
  {
  }

  /** Suffixes that differ only in letter case are identical. */
  lemma CaseVariantSuffixesFail(s: Settings, existingFiles: set<string>)
    requires s.xll32FilePath in existingFiles && s.xll64FilePath in existingFiles
    requires s.fileSuffix32Bit == Some("x32") && s.fileSuffix64Bit == Some("X32")
    ensures RunSanityChecks(s, existingFiles) == Some(IdenticalSuffixes)
  {
    assert Fold("x32") == "X32";
    assert Fold("X32") == "X32";
  }
}

=== FILE: text.dfy ===
/**
 * The string primitives of the .NET base library that the add-in task relies on,
 * restated over `seq<char>`: ordinal case-insensitive comparison, white-space tests,
 * and the last-occurrence searches used by file-name handling.
 */
module Text {
  import opened Optional

  /** Ordinal case folding: ASCII lower-case letters map to upper case, every other
      character is its own fold. */
  function FoldChar(c: char): char {
    if 'a' <= c <= 'z' then (c as int - 32) as char else c
  }

  /** The ordinal case fold of a string, character by character. */
  function Fold(s: string): string {
    seq(|s|, i requires 0 <= i < |s| => FoldChar(s[i]))
  }

  /** `string.Equals(a, b, StringComparison.OrdinalIgnoreCase)` on non-null strings. */
  predicate EqualsIgnoreCase(a: string, b: string) {
    Fold(a) == Fold(b)
  }

  lemma FoldAppend(a: string, b: string)
    ensures Fold(a + b) == Fold(a) + Fold(b)
  {
  }

  /** Ordinal case-insensitive equality relates only strings of the same length,
      and is an equivalence. */
  lemma EqualsIgnoreCaseProperties(a: string, b: string, c: string)
    ensures EqualsIgnoreCase(a, b) ==> |a| == |b|
    ensures EqualsIgnoreCase(a, a)
    ensures EqualsIgnoreCase(a, b) ==> EqualsIgnoreCase(b, a)
    ensures EqualsIgnoreCase(a, b) && EqualsIgnoreCase(b, c) ==> EqualsIgnoreCase(a, c)
  {
  }

  /** The characters `char.IsWhiteSpace` accepts: the Unicode space separators,
      the line and paragraph separators, and the control characters U+0009 to
      U+000D and U+0085. */
  const WhiteSpace: set<char> := {
    '\t', '\n', '\U{000B}', '\U{000C}', '\r', ' ', '\U{0085}', '\U{00A0}', '\U{1680}',
    '\U{2000}', '\U{2001}', '\U{2002}', '\U{2003}', '\U{2004}', '\U{2005}', '\U{2006}',
    '\U{2007}', '\U{2008}', '\U{2009}', '\U{200A}', '\U{2028}', '\U{2029}', '\U{202F}',
    '\U{205F}', '\U{3000}'
  }

  /** `string.IsNullOrWhiteSpace`: null, empty, or white space only. */
  predicate IsNullOrWhiteSpace(s: Option<string>) {
    s.None? || forall i :: 0 <= i < |s.value| ==> s.value[i] in WhiteSpace
  }

  lemma DotIsNotWhiteSpace()
    ensures '.' !in WhiteSpace
  {
  }

  /** A string holding a character that is not white space is not blank. */
  lemma HoldsNonBlank(s: string, c: char)
    requires c in s && c !in WhiteSpace
    ensures !IsNullOrWhiteSpace(Some(s))
  {
    var j :| 0 <= j < |s| && s[j] == c;
  }

  /** No ASCII letter is white space. */
  lemma LetterIsNotWhiteSpace(c: char)
    requires 'a' <= c <= 'z' || 'A' <= c <= 'Z'
    ensures c !in WhiteSpace
  {
  }

  /** Characters with the same fold are both white space or both not. */
  lemma FoldKeepsNonWhiteSpace(x: char, y: char)
    requires FoldChar(x) == FoldChar(y) && y !in WhiteSpace
    ensures x !in WhiteSpace
  {
    if 'a' <= x <= 'z' || 'A' <= x <= 'Z' {
      LetterIsNotWhiteSpace(x);
    } else {
      assert x == y;
    }
  }

  /** Case-insensitive equality never relates a blank string to a non-blank one. */
  lemma EqualsIgnoreCaseKeepsNonBlank(a: string, c: string)
    requires EqualsIgnoreCase(a, c) && !IsNullOrWhiteSpace(Some(c))
    ensures !IsNullOrWhiteSpace(Some(a))
  {
    var j :| 0 <= j < |c| && c[j] !in WhiteSpace;
    assert Fold(a)[j] == Fold(c)[j];
    FoldKeepsNonWhiteSpace(a[j], c[j]);
  }

  /** The text a possibly-null string contributes to a concatenation. */
  function OrEmpty(s: Option<string>): string {
    s.GetOr("")
  }

  /** `sub` occurs in `s` at index `i`, ignoring case. */
  predicate OccursAt(s: string, sub: string, i: int) {
    0 <= i && i + |sub| <= |s| && EqualsIgnoreCase(s[i..i + |sub|], sub)
  }

  /** `s.LastIndexOf(sub, StringComparison.OrdinalIgnoreCase)`, with `None` for -1:
      the greatest index at which `sub` occurs. */
  function LastIndexOfIgnoreCase(s: string, sub: string): (r: Option<nat>)
    ensures r.Some? ==> OccursAt(s, sub, r.value)
    ensures r.Some? ==> forall j :: r.value < j ==> !OccursAt(s, sub, j)
    ensures r.None? ==> forall j :: !OccursAt(s, sub, j)
  {
    LastOccurrenceUpTo(s, sub, |s| - |sub|)
  }

  /** The greatest index `i <= k` at which `sub` occurs in `s`. */
  function LastOccurrenceUpTo(s: string, sub: string, k: int): (r: Option<nat>)
    ensures r.Some? ==> r.value <= k && OccursAt(s, sub, r.value)
    ensures r.Some? ==> forall j :: r.value < j <= k ==> !OccursAt(s, sub, j)
    ensures r.None? ==> forall j :: j <= k ==> !OccursAt(s, sub, j)
    decreases k + 1
  {
    if k < 0 then None
    else if OccursAt(s, sub, k) then Some(k)
    else LastOccurrenceUpTo(s, sub, k - 1)
  }

  /** A string cannot occur where one of its characters has no counterpart. */
  lemma AbsentCharNoOccurrence(s: string, sub: string, j: nat)
    requires j < |sub|
    requires forall i :: 0 <= i < |s| ==> FoldChar(s[i]) != FoldChar(sub[j])
    ensures forall i :: !OccursAt(s, sub, i)
  {
    forall i ensures !OccursAt(s, sub, i) {
      if 0 <= i && i + |sub| <= |s| {
        assert s[i..i + |sub|][j] == s[i + j];
        assert Fold(s[i..i + |sub|])[j] != Fold(sub)[j];
      }
    }
  }

  /** `s.LastIndexOfAny(chars)`, with `None` for -1: the greatest index holding one
      of `chars`. */
  function LastIndexOfAny(s: string, chars: set<char>): (r: Option<nat>)
    ensures r.Some? ==> r.value < |s| && s[r.value] in chars
    ensures r.Some? ==> forall j :: r.value < j < |s| ==> s[j] !in chars
    ensures r.None? ==> forall j :: 0 <= j < |s| ==> s[j] !in chars
  {
    if |s| == 0 then None
    else if s[|s| - 1] in chars then Some(|s| - 1)
    else LastIndexOfAny(s[..|s| - 1], chars)
  }

  /** The last index holding one of `chars` is determined by its two defining
      properties. */
  lemma LastIndexOfAnyIs(s: string, chars: set<char>, i: nat)
    requires i < |s| && s[i] in chars
    requires forall j :: i < j < |s| ==> s[j] !in chars
    ensures LastIndexOfAny(s, chars) == Some(i)
  {
  }

  /** Searching a concatenation finds the match in the right part when there is
      one, and otherwise the match in the left part. */
  lemma {:induction false} LastIndexOfAnyAppend(a: string, b: string, chars: set<char>)
    ensures LastIndexOfAny(b, chars).Some? ==>
              LastIndexOfAny(a + b, chars) == Some(|a| + LastIndexOfAny(b, chars).value)
    ensures LastIndexOfAny(b, chars).None? ==>
              LastIndexOfAny(a + b, chars) == LastIndexOfAny(a, chars)
  {
    var s := a + b;
    match LastIndexOfAny(b, chars)
    case Some(k) =>
      LastIndexOfAnyIs(s, chars, |a| + k);
    case None =>
      match LastIndexOfAny(a, chars)
      case Some(k) =>
        LastIndexOfAnyIs(s, chars, k);
      case None =>
  }
}
